=== FILE: README.md ===
# TauDEM command wrapper, modelled in Dafny

The wrapper turns a table of TauDEM tools into Python functions. Each tool
is described by its executable name and its declared arguments. Each
argument has a name, an optional command-line flag, an "optional" marker,
a type string, and a "pass to program" marker.

Calling a generated function goes through five stages:

1. The positional and keyword values are bound to the declared arguments.
2. Unbound outputs become placeholders, and unbound required inputs are
   reported as missing.
3. Input grids are written into a fresh scratch directory, and one
   command-line token is built per argument.
4. The command line is run under the MPI launcher.
5. The output grids are read back from the files their tokens named. The
   scratch directory is deleted and the previous working directory
   restored on every exit path.

The project models these pieces:

- the binder;
- token generation;
- the command line;
- the read-back;
- the scratch directory's lifetime, as a trace of effects;
- the usage text;
- the numpy-to-GDAL type table;
- the settings that build the launcher prefix;
- the three shipped tool tables (`pitremove`, `d8flowdir`, `aread8`).

Modules:

- `Values` (values.dfy): argument values, arrays, dtypes, the type table
  and the default geotransform.
- `Results` (results.dfy): the errors the wrapper raises, and a result
  type.
- `Lists`, `Strings` (lists.dfy, strings.dfy): reversal, filtering, ASCII
  lower-casing, `' '.join`, `'%d'`, and POSIX `os.path.join`.
- `Settings` (settings.dfy): the configuration constants and `mpi_cmd`.
- `Arguments` (arguments.dfy): one declared argument, with `type_text`,
  `help_text`, `generate` (without the GDAL write) and `read_result`
  (without the GDAL read).
- `Binder`, `IntendedBinder` (binder.dfy):
  - `Binder` is the binder as written, proved equal to a reference
    definition stated in declaration order.
  - `IntendedBinder` is the keyword path the code evidently intends (see
    Findings).
- `Commands` (commands.dfy): the command constructor, the generated call
  as an outcome plus an effect trace, and `doc_string`.
- `Tables` (tables.dfy): the shipped tool tables, with worked calls of
  `pitremove` and `d8flowdir` under the shipped settings.

## Model

| member | source | states |
|---|---|---|
| Values.GdalTypeOf | taudem/commands.py:6-9 | only the single- and double-precision float dtypes have a GDAL type, and they map to Float32 and Float64 respectively; any other dtype is a missing key |
| Arguments.TypeText | taudem/commands.py:19-29 | input and output grids read "grid", an input shapefile reads "vector coverage", and any other type reads as its own type string |
| Arguments.HelpTextParts | taudem/commands.py:31-32 | the help line is the name, ": ", the type text, a space, and "(optional)" or "(required)" according to the optional marker, each at its position |
| Arguments.Generate | taudem/commands.py:41-85 | generation fails exactly for an input grid whose value is not an array or a dataset with exactly two dimensions, more than one element and a float dtype. The error is "invalid parameter" for a non-array or at most one element, then an IndexError for fewer than two dimensions, then a KeyError naming the dtype, then the band-write error for more than two dimensions. Only an input grid stages a file. That file is named after the flag (or the name) plus ".tif", has the GDAL type of the dtype and the dataset's transform or the default one, and takes its width from the second dimension and its height from the first. Grid and shapefile tokens are "-flag file" or the bare file. Any other type yields "-flag", with a missing flag printed as "None" |
| Arguments.ValueIgnoredUnlessInputGrid | taudem/commands.py:71-85 | every argument other than an input grid produces the same token whatever value it is bound to |
| Arguments.ReadResult | taudem/commands.py:87-97 | read-back succeeds exactly for an output grid, and otherwise fails with "can't read output" naming the argument |
| Arguments.ReadsTheFileItNames | taudem/commands.py:71-75 | an output grid is read back from the very file its command-line token names |
| Binder.MatchArg | taudem/commands.py:99-103 | the result is absent exactly when no argument's name matches the keyword ignoring case; otherwise it is the first matching argument in the list |
| Binder.MatchIgnoresCase | taudem/commands.py:100 | lower-casing the keyword first does not change the match |
| Binder.BindMatchesSpec | taudem/commands.py:116-143 | binding from the reversed pool equals a reference binder in declaration order: the first values bind the first arguments, too many values fail first, then any keyword fails, then missing required inputs are reported last-declared first, and unbound outputs become placeholders last-declared first |
| Binder.PositionalBindsInOrder | taudem/commands.py:118-124 | on success the i-th positional value is bound to the i-th declared argument, and nothing else is bound |
| Binder.TooManyArgumentsFirst | taudem/commands.py:120-124 | binding fails with "too many arguments" exactly when there are more values than declared arguments |
| Binder.KeywordCallsFail | taudem/commands.py:126-132 | with any keyword the binder fails on the first one. It fails with a TypeError from `append` exactly when the keyword names an unbound argument. It fails as an unknown argument exactly when the keyword names no argument. It fails with a TypeError from the format string exactly when the keyword names only arguments already bound by position |
| Binder.MissingRequiredReported | taudem/commands.py:134-143 | without keywords, binding fails exactly when a required input is left unbound; the error lists exactly the names of the unbound required inputs, last-declared first |
| Binder.PlaceholdersAreUnboundOutputs | taudem/commands.py:134 | on success the placeholders are the unbound output arguments, last-declared first, and an argument is a placeholder exactly when it is unbound and an output |
| Binder.BindSucceedsIff | taudem/commands.py:116-143 | binding succeeds exactly when the values fit, no keyword is given, and every unbound argument is an output or optional |
| IntendedBinder.KeywordPairsMatch | taudem/commands.py:126-132 | on success of the intended keyword loop, the j-th added pair binds an argument whose name matches the j-th keyword, to that keyword's value |
| IntendedBinder.KeywordFailureNamed | taudem/commands.py:127-131 | when the intended keyword loop fails, some keyword found no argument of its name left in the pool at its step. It is reported as unknown when no declared argument has its name, and as a duplicate when one has, that is, when that argument was bound earlier by position or keyword |
| IntendedBinder.KeywordsSucceedIff | taudem/commands.py:126-132 | the intended keyword loop succeeds exactly when every keyword in turn finds an argument of its name still in the pool, and it then leaves the pool those steps leave |
| IntendedBinder.KeywordsTakenFromPool | taudem/commands.py:127 | the arguments bound by keyword and the pool left over together make up the original pool, as a multiset |
| IntendedBinder.IntendedAgreesWithoutKeywords | taudem/commands.py:116-143 | without keywords the intended binder and the binder as written agree |
| IntendedBinder.PositionalOverflow | taudem/commands.py:120-124 | the intended binder fails with "too many arguments" exactly when there are more values than declared arguments, whatever the keywords |
| IntendedBinder.IntendedDuplicateBinding | taudem/commands.py:128-131 | a keyword that matches only an argument bound by position is reported as provided by position and keyword |
| IntendedBinder.IntendedKeywordsBind | taudem/commands.py:116-132 | on success the positional pairs come first and in declaration order, each keyword then binds a matching argument to its value, and every keyword-bound argument was not bound by position |
| IntendedBinder.IntendedLeftovers | taudem/commands.py:134-143 | once the keywords bind, the unbound arguments are those taken neither by position nor by keyword (as a multiset). The call succeeds exactly when none of them is a required input. On success the placeholders are exactly its outputs. Otherwise the missing names are exactly those of its required inputs |
| Commands.NewCommand | taudem/commands.py:106-109 | a command keeps its name and declared arguments in order, with one optional, non-output `as_array` argument appended last |
| Commands.AsArrayListedLast | taudem/commands.py:109 | in the usage text, `as_array` is the last input, and the outputs are exactly the declared ones |
| Commands.Tokens | taudem/commands.py:152-155 | token generation succeeds exactly when every pair generates; the i-th token is the i-th pair's token text; its only effects are grid writes |
| Commands.TokensWriteAll | taudem/commands.py:155 | when every token generates, the grids written are those staged for each pair, in pair order |
| Commands.TokensStopAtFirstFailure | taudem/commands.py:155 | when a token cannot be generated, the error raised is that of the first failing pair, and only the grids of the pairs before it were written |
| Commands.Reads | taudem/commands.py:168 | read-back succeeds exactly when every placeholder is an output grid; the i-th result and the i-th effect are the i-th placeholder's file ("flag or name" plus ".tif") |
| Commands.ReadsStopAtFirstFailure | taudem/commands.py:87-97 | when read-back fails, the error is "can't read output" naming the first placeholder that is not an output grid, and exactly the grids of the placeholders before it were read, in order |
| Commands.CommandLineLayout | taudem/commands.py:155 | the line starts with the launcher prefix, a space, the executable path glued to the command name, and a space; bound tokens come before placeholder tokens, separated by one space; with MPI off the line starts with a space |
| Commands.Execute | taudem/commands.py:116-148 | a binding error is raised with no effect at all |
| Commands.BoundCallOutcome | taudem/commands.py:148-176 | once bound, an error from generating a token or from reading an output back becomes the call's error; the call succeeds exactly when every token generates and every placeholder is an output grid, and then returns the files read back, shaped as a single value or a tuple |
| Commands.BoundCallFailsAtFirst | taudem/commands.py:155-168 | a failing bound call raises the error of the first pair whose token cannot be generated, or, when every token generates, "can't read output" naming the first placeholder that is not an output grid |
| Commands.ScratchAlwaysCleanedUp | taudem/commands.py:148-176 | once bound, every trace starts by creating and entering the scratch directory and ends by deleting it and restoring the working directory, whatever fails in between; in between there are only grid writes, the run and grid reads |
| Commands.TraceWhenTokensFail | taudem/commands.py:148-155 | once bound, when the k-th pair is the first whose token cannot be generated, the trace is: create and enter the scratch directory, write the grids staged by the pairs before it in pair order, delete the directory and restore the working directory; nothing is run or read |
| Commands.TraceWhenTokensGenerate | taudem/commands.py:148-176 | once bound, when every token generates, the trace is: create and enter the scratch directory, write every staged grid in pair order, run the command line of those tokens, read back the grids, delete the directory and restore the working directory. The reads are every placeholder's "flag or name" plus ".tif" file in placeholder order, or, when a placeholder is not an output grid, those of the placeholders before the first such one |
| Commands.ReadBackEvents | taudem/commands.py:87-97 | the read-back events are every placeholder's file in order, or, when a placeholder is not an output grid, those of the placeholders before the first such one |
| Commands.RunsOnlyWhenTokensGenerated | taudem/commands.py:152-162 | the command is run exactly when every token generates, and then exactly once, with the command line of those tokens |
| Commands.ResultShape | taudem/commands.py:168-172 | a successful call returns a single value exactly when there is one placeholder, and otherwise a tuple with one file per placeholder, in placeholder order |
| Commands.Call | taudem/commands.py:116-176 | a call with any keyword fails with no effect; a call with too many values fails with "too many arguments" and no effect |
| Commands.AllOutputsBoundGiveEmptyTuple | taudem/commands.py:168-172 | a successful call that binds every output positionally returns an empty tuple |
| Commands.HeadingLayout | taudem/commands.py:184 | the heading is the name, a newline, one dash per character of the name, and a blank line |
| Commands.InputSectionIsFilter | taudem/commands.py:186-190 | the first loop lists exactly the non-output arguments, in declaration order |
| Commands.OutputSectionIsFilter | taudem/commands.py:194-198 | the second loop lists exactly the output arguments, in declaration order |
| Commands.DocStringLayout | taudem/commands.py:183-200 | the usage text is the heading, the inputs, "Returns:", then the outputs |
| Settings.MpiCmdParts | taudem/settings.py:14-18 | the prefix is empty exactly when MPI is off; otherwise it is the launcher path (ending in the launcher name), then " -n ", then text that reads back as the process count |
| Settings.DefaultPrefix | taudem/settings.py:4-12 | with the shipped settings the prefix is "mpiexec -n 4" and the executable path is empty |
| Strings.DecimalRoundTrip | taudem/settings.py:18 | the process count formatted with `%d` reads back as the same integer, negative ones included |
| Strings.PathJoin | taudem/settings.py:18 | `os.path.join` ends with its second part and returns an absolute second part unchanged. Otherwise it starts with the first part, returns the second part alone when the first is empty, and puts exactly one "/" before the second part, adding it only when the first part does not already end with one |
| Tables.FillPitsDeclared | taudem/commands.py:202-206 | `pitremove` declares the elevation grid, the pit-filled output and the optional flow-direction grid, then `as_array` |
| Tables.D8PDeclared | taudem/commands.py:208-213 | `d8flowdir` declares the pit-filled grid, the pointer and slope outputs and the optional flow-direction grid, then `as_array` |
| Tables.AreaD8Declared | taudem/commands.py:215-221 | `aread8` declares the pointer grid, the area output, the optional outlets shapefile, weight grid and contamination flag, then `as_array` |
| Tables.Kinds | taudem/commands.py:202-221 | in the three tables, exactly the arguments declared with the output-grid type are outputs |
| Tables.ShippedCommands | taudem/commands.py:223 | the module lists the three tools in the order pitremove, d8flowdir, aread8, each ending with `as_array` |
| Tables.FillPitsCall | taudem/commands.py:202-206 | `pitremove` on a 3 x 3 single-precision array writes "z.tif", runs "mpiexec -n 4 pitremove -z z.tif -fel fel.tif", reads "fel.tif" back as its single result, then cleans up |
| Tables.FillPitsMissingDem | taudem/commands.py:136-143 | `pitremove` with no values reports the elevation grid missing, before any effect |
| Tables.D8PCall | taudem/commands.py:208-213 | `d8flowdir` on one array runs "mpiexec -n 4 d8flowdir -fel fel.tif -sd8 sd8.tif -p p.tif" and returns the slope and pointer files as a tuple, slope first |
| Tables.KeywordCallRaises | taudem/commands.py:132 | passing the elevation grid by keyword raises the `append` TypeError, before any effect |
| Tables.IntendedKeywordCallRuns | taudem/commands.py:126-132 | with the intended keyword path, passing the elevation grid by keyword has the same outcome as passing it by position |
| Tables.DuplicateKeywordRaises | taudem/commands.py:131 | passing the elevation grid both by position and by keyword raises the format-string TypeError |
| Tables.IntendedDuplicateReported | taudem/commands.py:131 | with the intended keyword path, the same call reports the grid as provided by position and keyword |

## Left out

- GDAL itself is not modelled. Writing a grid is the `WriteGrid` event,
  which carries the file name, size, GDAL type and transform. Reading a
  grid is the `ReadGrid` event, and a grid read back is represented by its
  file name.
- `tempfile.mkdtemp`, `os.chdir`, `os.system` and `shutil.rmtree` are
  events in the trace. Their own failures are not modelled. The exit
  status of the command is ignored, as the code ignores it.
- A failed GDAL open or read is not modelled. When the tool fails and
  never writes an output, `Open` returns `None` and `GetRasterBand`
  raises (commands.py:92-93), which is how a failing tool surfaces in
  the program. `Commands.Reads` succeeds for every output grid, so its
  "exactly when" holds only when every output file exists and is
  readable.
- The debug `print` calls and the `glob` listings are left out, because
  they have no effect on the outcome.
- `str.lower` is modelled for ASCII letters only. Non-ASCII case mapping
  is left out.
- Exception message texts are not reproduced. Each raise is a
  constructor of `Error`, which carries the names the message would
  carry.
- Duck-typed values (`hasattr(value, 'GetRasterBand')` at
  commands.py:48 and `hasattr(value, 'ReadAsArray')` at commands.py:52)
  are a tagged `Value`. It is an array, a dataset with its transform and
  first band, or anything else. A GDAL band passed directly has
  `ReadAsArray` but no `GetRasterBand`. It is read into an array and
  written with the default transform, so it is represented as a
  `RawArray` of the array it reads as.
- Any value outside those tags is treated as having size 1. A Python
  list of several numbers, whose `np.size` exceeds 1 and which then fails
  on `.shape`, is left out.
- Geotransform coefficients are reals, not floating point.
- The `as_array` keyword looked up at commands.py:166 is left out. The
  code as written never reaches it with a keyword, because every keyword
  call raises in the binder. Its value is passed to `read_result`, which
  never uses its parameter (commands.py:87-95), so it has no effect on
  the outcome either way.
- `pass_to_program` is stored but never read by the code, so no
  behaviour depends on it.
- `as_array` bound by position gets the token "-None", like any argument
  of an unknown type without a flag. This follows from `Generate` with
  no special case.
- Arguments.Generate: an input grid with more than two dimensions
  fails with the band-write error, as GDAL's `WriteArray` rejects it at
  commands.py:63. The raster that `Create` makes at commands.py:60 just
  before that failure is not an event. It sits in the scratch directory,
  which is removed on the way out.
- Commands.NewCommand: the command copies the declared list with
  `as_array` appended. The code appends to the caller's list object in
  place (commands.py:108-109). Two commands built from one list object
  would share it, and the second would get `as_array` twice. The three
  shipped tables each pass a fresh list, so they are unaffected.
- Tables: `aread8` has its declaration and kinds proved, but no worked
  call.
- taudem/utils.py and taudem/__init__.py are not part of this model.
- Commands.CallIntended: has no contract of its own. Its properties are
  stated over `IntendedBinder.BindIntended`, plus the worked
  `Tables.IntendedKeywordCallRuns`.

## Findings

| source | as written | input that shows it | evidently intended | confidence | as-written member | corrected member |
|---|---|---|---|---|---|---|
| taudem/commands.py:131 | `'argument provided by position and keyword: '%k` has no conversion, so `%` raises TypeError instead of the intended message | `fillpits(dem, demgrid=dem)` | raise "argument provided by position and keyword: demgrid" | high (not executed) | Binder.KeywordCallsFail, Tables.DuplicateKeywordRaises | IntendedBinder.IntendedDuplicateBinding, Tables.IntendedDuplicateReported |
| taudem/commands.py:132 | `cmd_args.append(a,v)` passes two arguments to `list.append`, so every keyword that names an unbound argument raises TypeError, and no call can bind by keyword | `fillpits(demgrid=dem)` | append the pair `(a, v)` and take `a` out of the pool of available arguments | high (not executed) | Binder.KeywordCallsFail, Tables.KeywordCallRaises | IntendedBinder.KeywordsSucceedIff, IntendedBinder.IntendedKeywordsBind, Tables.IntendedKeywordCallRuns |

=== FILE: arguments.dfy ===
/** One declared argument of a toolkit command: its usage text, the
    command-line token it contributes, and the file its result is read
    from. */
module Arguments {
  import opened Values
  import opened Results

  const INPUT_GRID := "inputgrid"
  const OUTPUT_GRID := "outputgrid"
  const INPUT_SHP := "inputshp"

  /** A declared argument.  `kind` is the type string of the declaration
      ("inputgrid", "outputgrid", "inputshp", "flag", "boolean", ...);
      the defaults are those of the constructor. */
  datatype Argument = Argument(
    name: string,
    flag: Option<string> := None,
    optional: bool := false,
    kind: string := INPUT_GRID,
    passToProgram: bool := false)

  /** Output arguments are those whose type starts with "output". */
  predicate IsOutput(a: Argument)
  {
    "output" <= a.kind
  }

  predicate NotOutput(a: Argument)
  {
    !IsOutput(a)
  }

  /** An argument the caller must bind: neither an output nor optional. */
  predicate IsRequiredInput(a: Argument)
  {
    !IsOutput(a) && !a.optional
  }

  /** Python truthiness of the flag: `None` and "" are both false. */
  predicate HasFlag(a: Argument)
  {
    a.flag.Some? && a.flag.value != ""
  }

  /** `'%s' % flag`: a missing flag prints as "None". */
  function FlagText(a: Argument): string
  {
    match a.flag
    case None => "None"
    case Some(f) => f
  }

  /** `flag or name`: the stem of the argument's scratch file. */
  function Stem(a: Argument): (r: string)
    ensures HasFlag(a) ==> r == a.flag.value
    ensures !HasFlag(a) ==> r == a.name
  {
    if HasFlag(a) then a.flag.value else a.name
  }

  /** The token naming a file: `-flag file`, or the bare file without a
      flag. */
  function FileToken(a: Argument, file: string): string
  {
    if HasFlag(a) then "-" + a.flag.value + " " + file else file
  }

  /** `type_text`: grid types read "grid", an input shapefile reads
      "vector coverage", any other type reads as itself. */
  function TypeText(a: Argument): (r: string)
    ensures a.kind == INPUT_GRID || a.kind == OUTPUT_GRID ==> r == "grid"
    ensures a.kind == INPUT_SHP ==> r == "vector coverage"
    ensures a.kind !in {INPUT_GRID, OUTPUT_GRID, INPUT_SHP} ==> r == a.kind
  {
    if a.kind == INPUT_GRID then "grid"
    else if a.kind == OUTPUT_GRID then "grid"
    else if a.kind == INPUT_SHP then "vector coverage"
    else a.kind
  }

  /** `help_text`: "name: type (optional|required)". */
  function HelpText(a: Argument): (h: string)
  {
    a.name + ": " + TypeText(a) + " (" + (if a.optional then "optional" else "required") + ")"
  }

  /** The help line leads with the argument's name and ends with whether
      the caller may omit it; the type text sits between the two. */
  lemma HelpTextParts(a: Argument)
    ensures var h, n := HelpText(a), |a.name|;
      && |h| == n + |TypeText(a)| + 13
      && h[..n + 2] == a.name + ": "
      && h[n + 2..n + 2 + |TypeText(a)|] == TypeText(a)
      && h[n + 2 + |TypeText(a)|] == ' '
      && h[|h| - 10..] == (if a.optional then "(optional)" else "(required)")
  {
    var h, n, t := HelpText(a), |a.name|, TypeText(a);
    var q := if a.optional then "optional" else "required";
    assert h == (a.name + ": ") + t + " (" + q + ")";
  }

  /** A grid written to the scratch directory: file name, width, height,
      GDAL type and geotransform (one band). */
  datatype StagedGrid = StagedGrid(
    file: string,
    xSize: nat,
    ySize: nat,
    gdalType: GdalType,
    transform: Transform)

  /** The text an argument contributes to the command line, and the grid
      written to disk to back it, if any. */
  datatype Token = Token(text: string, staged: Option<StagedGrid>)

  /** The array an input grid is written from: the value itself, or the
      first band of a dataset. */
  function Pixels(v: Value): NdArray
    requires !v.Other?
  {
    if v.RawArray? then v.arr else v.band
  }

  /** An input grid value is acceptable when it is an array, or a dataset
      whose band is one, with more than one element, exactly two
      dimensions and a floating-point element type. */
  predicate GridAccepted(v: Value)
  {
    && !v.Other?
    && Size(Pixels(v)) > 1
    && |Pixels(v).shape| == 2
    && GdalTypeOf(Pixels(v).dtype).Some?
  }

  /** Checks and stages an input grid array, in the order the wrapper
      fails: element count, then the second dimension, then the type
      lookup, then the band write, which takes only two dimensions. */
  function StageGrid(a: Argument, file: string, t: Transform, x: NdArray): Result<Token>
  {
    if Size(x) <= 1 then Failure(InvalidParameter(a.name))
    else if |x.shape| < 2 then Failure(ShapeIndexError(a.name))
    else match GdalTypeOf(x.dtype)
      case None => Failure(DTypeKeyError(x.dtype))
      case Some(g) =>
        if |x.shape| != 2 then Failure(WriteArrayError(a.name))
        else Success(Token(FileToken(a, file), Some(StagedGrid(file, x.shape[1], x.shape[0], g, t))))
  }

  /** `TaudemCommandArgument.generate` without the GDAL write itself: the
      token for one bound argument, and for an input grid the raster that
      is written. */
  function Generate(a: Argument, v: Value): (r: Result<Token>)
    ensures r.Failure? <==> a.kind == INPUT_GRID && !GridAccepted(v)
    ensures r.Success? ==> (r.value.staged.Some? <==> a.kind == INPUT_GRID)
    ensures a.kind == INPUT_GRID && v.Other? ==> r == Failure(InvalidParameter(a.name))
    ensures a.kind == INPUT_GRID && !v.Other? ==>
      var x := Pixels(v);
      && (Size(x) <= 1 ==> r == Failure(InvalidParameter(a.name)))
      && (Size(x) > 1 && |x.shape| < 2 ==> r == Failure(ShapeIndexError(a.name)))
      && (Size(x) > 1 && |x.shape| >= 2 && GdalTypeOf(x.dtype).None? ==> r == Failure(DTypeKeyError(x.dtype)))
      && (Size(x) > 1 && |x.shape| > 2 && GdalTypeOf(x.dtype).Some? ==> r == Failure(WriteArrayError(a.name)))
    ensures r.Success? && a.kind == INPUT_GRID ==>
      var g, x := r.value.staged.value, Pixels(v);
      && g.file == Stem(a) + ".tif"
      && Some(g.gdalType) == GdalTypeOf(x.dtype)
      && g.ySize == x.shape[0] && g.xSize == x.shape[1]
      && g.transform == (if v.Dataset? then v.transform else DefaultTransform)
    ensures r.Success? && a.kind in {INPUT_GRID, OUTPUT_GRID, INPUT_SHP} ==>
      var file := Stem(a) + (if a.kind == INPUT_SHP then ".shp" else ".tif");
      r.value.text == (if HasFlag(a) then "-" + a.flag.value + " " + file else file)
    ensures a.kind !in {INPUT_GRID, OUTPUT_GRID, INPUT_SHP} ==> r == Success(Token("-" + FlagText(a), None))
  {
    if a.kind == INPUT_GRID then
      var file := Stem(a) + ".tif";
      match v
      case Other => Failure(InvalidParameter(a.name))
      case RawArray(x) => StageGrid(a, file, DefaultTransform, x)
      case Dataset(t, x) => StageGrid(a, file, t, x)
    else if a.kind == OUTPUT_GRID then
      Success(Token(FileToken(a, Stem(a) + ".tif"), None))
    else if a.kind == INPUT_SHP then
      Success(Token(FileToken(a, Stem(a) + ".shp"), None))
    else
      Success(Token("-" + FlagText(a), None))
  }

  /** Only an input grid looks at its value: every other argument yields
      the same token whatever it is bound to. */
  lemma ValueIgnoredUnlessInputGrid(a: Argument, v: Value, w: Value)
    requires a.kind != INPUT_GRID
    ensures Generate(a, v) == Generate(a, w)
  {
  }

  /** `read_result` without the GDAL read: the file an output grid is read
      back from, or the error for any other argument. */
  function ReadResult(a: Argument): (r: Result<string>)
    ensures r.Success? <==> a.kind == OUTPUT_GRID
    ensures r.Failure? ==> r.error == CantReadOutput(a.name)
  {
    if a.kind == OUTPUT_GRID then Success(Stem(a) + ".tif") else Failure(CantReadOutput(a.name))
  }

  /** An output grid is read back from the very file its token names to
      the program. */
  lemma ReadsTheFileItNames(a: Argument, v: Value)
    requires a.kind == OUTPUT_GRID
    ensures Generate(a, v).Success? && ReadResult(a).Success?
    ensures var text, file := Generate(a, v).value.text, ReadResult(a).value;
      && |text| >= |file| && text[|text| - |file|..] == file
      && (HasFlag(a) ==> text == "-" + a.flag.value + " " + file)
      && (!HasFlag(a) ==> text == file)
  {
  }
}

=== FILE: binder.dfy ===
/** The argument binder of a generated command function: positional values
    pop declared arguments from a reversed pool, keywords are matched
    against what is left, and whatever stays unbound becomes an output
    placeholder or a missing required argument. */
module Binder {
  import opened Values
  import opened Results
  import opened Lists
  import opened Strings
  import opened Arguments

  /** Case-insensitive comparison of a keyword with an argument's name. */
  predicate NameMatches(keyword: string, a: Argument)
  {
    Lower(a.name) == Lower(keyword)
  }

  /** `_match_arg`: the first argument whose name matches, if any. */
  function MatchArg(keyword: string, args: seq<Argument>): (r: Option<Argument>)
    ensures r.None? <==> forall i :: 0 <= i < |args| ==> !NameMatches(keyword, args[i])
    ensures r.Some? ==> r.value in args && NameMatches(keyword, r.value)
    ensures r.Some? ==>
      exists i :: (0 <= i < |args| && args[i] == r.value && NameMatches(keyword, args[i])
        && forall j :: 0 <= j < i ==> !NameMatches(keyword, args[j]))
  {
    if args == [] then None
    else if NameMatches(keyword, args[0]) then Some(args[0])
    else
      var r := MatchArg(keyword, args[1..]);
      assert forall j :: 1 <= j < |args| ==> args[j] == args[1..][j - 1];
      r
  }

  /** Matching ignores the case of the keyword. */
  lemma MatchIgnoresCase(keyword: string, args: seq<Argument>)
    ensures MatchArg(keyword, args) == MatchArg(Lower(keyword), args)
    decreases |args|
  {
    LowerIdempotent(keyword);
    if args != [] {
      MatchIgnoresCase(keyword, args[1..]);
    }
  }

  /** The binder's working state: `available_args`, a stack whose top is
      its last element, and `cmd_args`, the bound pairs in binding order. */
  datatype State = State(available: seq<Argument>, bound: seq<(Argument, Value)>)

  /** A successful binding: the bound pairs, then the output arguments
      left unbound, which become placeholders. */
  datatype Bound = Bound(bound: seq<(Argument, Value)>, placeholders: seq<Argument>)

  function NameOf(a: Argument): string
  {
    a.name
  }

  function Names(args: seq<Argument>): seq<string>
  {
    Map(args, NameOf)
  }

  /** Pairs each argument with the value at the same position. */
  function Pairs(args: seq<Argument>, values: seq<Value>): (r: seq<(Argument, Value)>)
    requires |args| == |values|
    ensures |r| == |args|
    ensures forall i :: 0 <= i < |r| ==> r[i] == (args[i], values[i])
  {
    seq(|args|, i requires 0 <= i < |args| => (args[i], values[i]))
  }

  /** The positional loop: each value pops the top of the pool; popping an
      empty pool is "too many arguments". */
  function BindPositional(st: State, values: seq<Value>): Result<State>
    decreases |values|
  {
    if values == [] then Success(st)
    else if st.available == [] then Failure(TooManyArguments)
    else
      var top := st.available[|st.available| - 1];
      BindPositional(State(st.available[..|st.available| - 1], st.bound + [(top, values[0])]), values[1..])
  }

  /** The keyword loop as written: a keyword that matches the pool calls
      `append` with two arguments, one that matches only an argument bound
      by position hits the malformed format string, and one that matches
      nothing is unknown.  Every branch raises, so the loop never reaches
      its second keyword. */
  function BindKeywords(arguments: seq<Argument>, st: State, keywords: seq<(string, Value)>): (r: Result<State>)
    ensures keywords == [] <==> r == Success(st)
  {
    if keywords == [] then Success(st)
    else
      var keyword := keywords[0].0;
      match MatchArg(keyword, st.available)
      case Some(_) => Failure(AppendTypeError)
      case None =>
        if MatchArg(keyword, arguments).None? then Failure(UnknownArgument(keyword))
        else Failure(FormatTypeError)
  }

  /** After the loops: unbound outputs become placeholders (pool order),
      and unbound required inputs are reported (pool order). */
  function Finish(st: State): Result<Bound>
  {
    var placeholders := Filter(st.available, IsOutput);
    var missing := Names(Filter(st.available, IsRequiredInput));
    if |missing| > 0 then Failure(MissingRequired(missing))
    else Success(Bound(st.bound, placeholders))
  }

  /** The binder of the generated command function, as written. */
  function Bind(arguments: seq<Argument>, positional: seq<Value>, keywords: seq<(string, Value)>): (r: Result<Bound>)
  {
    var st :- BindPositional(State(Reverse(arguments), []), positional);
    var st' :- BindKeywords(arguments, st, keywords);
    Finish(st')
  }

  /** The error a keyword call ends in, stated over declaration order. */
  function KeywordError(arguments: seq<Argument>, k: nat, keyword: string): Error
    requires k <= |arguments|
  {
    if exists i :: k <= i < |arguments| && NameMatches(keyword, arguments[i]) then AppendTypeError
    else if exists i :: 0 <= i < k && NameMatches(keyword, arguments[i]) then FormatTypeError
    else UnknownArgument(keyword)
  }

  /** Reference definition of the binder in declaration order: the first
      values bind the first arguments, the rest of the declaration is
      unbound, and unbound arguments are listed last-declared first. */
  function BindSpec(arguments: seq<Argument>, positional: seq<Value>, keywords: seq<(string, Value)>): (r: Result<Bound>)
  {
    var k := |positional|;
    if k > |arguments| then Failure(TooManyArguments)
    else if keywords != [] then Failure(KeywordError(arguments, k, keywords[0].0))
    else
      var unbound := arguments[k..];
      var missing := Reverse(Names(Filter(unbound, IsRequiredInput)));
      if missing != [] then Failure(MissingRequired(missing))
      else Success(Bound(Pairs(arguments[..k], positional), Reverse(Filter(unbound, IsOutput))))
  }

  /** The top of the reversed pool of `args[k..]` is `args[k]`, and
      popping it leaves the reversed pool of `args[k + 1..]`. */
  lemma PopReversed(args: seq<Argument>, k: nat)
    requires k < |args|
    ensures var pool := Reverse(args[k..]);
      && pool != []
      && pool[|pool| - 1] == args[k]
      && pool[..|pool| - 1] == Reverse(args[k + 1..])
  {
    assert args[k..][1..] == args[k + 1..];
  }

  /** Popping the reversed pool of `args[k..]` binds values in declaration
      order starting at `args[k]`. */
  lemma {:induction false} BindPositionalClosed(args: seq<Argument>, k: nat, bound: seq<(Argument, Value)>, values: seq<Value>)
    requires k <= |args|
    ensures BindPositional(State(Reverse(args[k..]), bound), values)
      == if |values| > |args| - k then Failure(TooManyArguments)
         else Success(State(Reverse(args[k + |values|..]), bound + Pairs(args[k..k + |values|], values)))
    decreases |values|
  {
    if values == [] {
      assert bound + Pairs(args[k..k], values) == bound;
    } else if k == |args| {
      assert args[k..] == [];
    } else {
      PopReversed(args, k);
      var bound' := bound + [(args[k], values[0])];
      calc {
        BindPositional(State(Reverse(args[k..]), bound), values);
        BindPositional(State(Reverse(args[k + 1..]), bound'), values[1..]);
      }
      BindPositionalClosed(args, k + 1, bound', values[1..]);
      if |values| <= |args| - k {
        assert bound' + Pairs(args[k + 1..k + |values|], values[1..]) == bound + Pairs(args[k..k + |values|], values);
      }
    }
  }

  /** A keyword matches something in the pool of `args[k..]` exactly when
      it matches one of those arguments. */
  lemma MatchReversedPool(args: seq<Argument>, k: nat, keyword: string)
    requires k <= |args|
    ensures MatchArg(keyword, Reverse(args[k..])).Some?
      <==> exists i :: k <= i < |args| && NameMatches(keyword, args[i])
  {
    var pool := Reverse(args[k..]);
    if exists i :: k <= i < |args| && NameMatches(keyword, args[i]) {
      var i :| k <= i < |args| && NameMatches(keyword, args[i]);
      assert pool[|args| - 1 - i] == args[i];
    }
    if MatchArg(keyword, pool).Some? {
      var j :| 0 <= j < |pool| && NameMatches(keyword, pool[j]);
      assert pool[j] == args[|args| - 1 - j];
    }
  }

  /** Finishing on the reversed pool of `args[k..]` lists placeholders and
      missing names last-declared first. */
  lemma FinishReversedPool(args: seq<Argument>, k: nat, bound: seq<(Argument, Value)>)
    requires k <= |args|
    ensures var missing := Reverse(Names(Filter(args[k..], IsRequiredInput)));
      Finish(State(Reverse(args[k..]), bound))
      == if missing != [] then Failure(MissingRequired(missing))
         else Success(Bound(bound, Reverse(Filter(args[k..], IsOutput))))
  {
    FilterReverse(args[k..], IsOutput);
    FilterReverse(args[k..], IsRequiredInput);
    MapReverse(Filter(args[k..], IsRequiredInput), NameOf);
  }

  /** The state after a positional loop that did not run out of
      arguments. */
  lemma PositionalState(arguments: seq<Argument>, positional: seq<Value>) returns (st: State)
    requires |positional| <= |arguments|
    ensures st == State(Reverse(arguments[|positional|..]), Pairs(arguments[..|positional|], positional))
    ensures BindPositional(State(Reverse(arguments), []), positional) == Success(st)
  {
    var k := |positional|;
    assert arguments[0..] == arguments;
    BindPositionalClosed(arguments, 0, [], positional);
    assert arguments[0..k] == arguments[..k];
    st := State(Reverse(arguments[k..]), Pairs(arguments[..k], positional));
    assert [] + st.bound == st.bound;
  }

  /** A keyword loop on the pool left by the positional values fails with
      the error the reference definition names. */
  lemma KeywordErrorOnPool(arguments: seq<Argument>, k: nat, bound: seq<(Argument, Value)>, keywords: seq<(string, Value)>)
    requires k <= |arguments| && keywords != []
    ensures BindKeywords(arguments, State(Reverse(arguments[k..]), bound), keywords)
      == Failure(KeywordError(arguments, k, keywords[0].0))
  {
    MatchReversedPool(arguments, k, keywords[0].0);
  }

  /** The binder as written agrees with its reference definition. */
  lemma BindMatchesSpec(arguments: seq<Argument>, positional: seq<Value>, keywords: seq<(string, Value)>)
    ensures Bind(arguments, positional, keywords) == BindSpec(arguments, positional, keywords)
  {
    var k := |positional|;
    if k > |arguments| {
      assert arguments[0..] == arguments;
      BindPositionalClosed(arguments, 0, [], positional);
    } else {
      var st := PositionalState(arguments, positional);
      if keywords != [] {
        KeywordErrorOnPool(arguments, k, st.bound, keywords);
      } else {
        FinishReversedPool(arguments, k, st.bound);
      }
    }
  }

  /** Positional values bind one each to the declared arguments in
      declaration order. */
  lemma PositionalBindsInOrder(arguments: seq<Argument>, positional: seq<Value>, keywords: seq<(string, Value)>)
    ensures var r := Bind(arguments, positional, keywords);
      r.Success? ==>
        (&& |positional| <= |arguments|
         && |r.value.bound| == |positional|
         && forall i :: 0 <= i < |positional| ==> r.value.bound[i] == (arguments[i], positional[i]))
  {
    BindMatchesSpec(arguments, positional, keywords);
  }

  /** More positional values than declared arguments is "too many
      arguments", whatever the keywords; no other call fails that way. */
  lemma TooManyArgumentsFirst(arguments: seq<Argument>, positional: seq<Value>, keywords: seq<(string, Value)>)
    ensures Bind(arguments, positional, keywords) == Failure(TooManyArguments) <==> |positional| > |arguments|
  {
    BindMatchesSpec(arguments, positional, keywords);
  }

  /** Every call with a keyword fails: a keyword matching an unbound
      argument fails in `append`, an unknown keyword is reported, and a
      keyword matching only a positionally bound argument fails in the
      format operation. */
  lemma KeywordCallsFail(arguments: seq<Argument>, positional: seq<Value>, keywords: seq<(string, Value)>)
    requires |positional| <= |arguments| && keywords != []
    ensures var r, kw := Bind(arguments, positional, keywords), keywords[0].0;
      && r.Failure?
      && (r.error == AppendTypeError <==> exists i :: |positional| <= i < |arguments| && NameMatches(kw, arguments[i]))
      && (r.error == UnknownArgument(kw) <==> forall i :: 0 <= i < |arguments| ==> !NameMatches(kw, arguments[i]))
      && (r.error == FormatTypeError <==>
            (exists i :: 0 <= i < |positional| && NameMatches(kw, arguments[i]))
            && forall i :: |positional| <= i < |arguments| ==> !NameMatches(kw, arguments[i]))
  {
    BindMatchesSpec(arguments, positional, keywords);
  }

  lemma InNames(s: seq<Argument>, n: string)
    ensures n in Names(s) <==> exists a :: a in s && a.name == n
  {
    if n in Names(s) {
      var j :| 0 <= j < |s| && Names(s)[j] == n;
      assert s[j] in s;
    }
  }

  /** An argument is in `args[k..]` exactly when it sits at some index
      from `k` on. */
  lemma InSuffix(args: seq<Argument>, k: nat, a: Argument)
    requires k <= |args|
    ensures a in args[k..] <==> exists i :: k <= i < |args| && args[i] == a
  {
    if a in args[k..] {
      var j :| 0 <= j < |args[k..]| && args[k..][j] == a;
      assert args[k + j] == a;
    }
    if exists i :: k <= i < |args| && args[i] == a {
      var i :| k <= i < |args| && args[i] == a;
      assert args[k..][i - k] == a;
    }
  }

  /** Without keywords, the call fails exactly when some required input is
      left unbound, and the error names precisely those inputs,
      last-declared first. */
  lemma MissingRequiredReported(arguments: seq<Argument>, positional: seq<Value>)
    requires |positional| <= |arguments|
    ensures var r, k := Bind(arguments, positional, []), |positional|;
      && (r.Failure? <==> exists i :: k <= i < |arguments| && IsRequiredInput(arguments[i]))
      && (r.Failure? ==> r.error == MissingRequired(Reverse(Names(Filter(arguments[k..], IsRequiredInput)))))
      && (r.Failure? ==> forall n :: n in r.error.names <==>
            exists i :: k <= i < |arguments| && IsRequiredInput(arguments[i]) && arguments[i].name == n)
  {
    BindMatchesSpec(arguments, positional, []);
    var k := |positional|;
    var req := Filter(arguments[k..], IsRequiredInput);
    var names := Reverse(Names(req));
    if exists i :: k <= i < |arguments| && IsRequiredInput(arguments[i]) {
      var i :| k <= i < |arguments| && IsRequiredInput(arguments[i]);
      InSuffix(arguments, k, arguments[i]);
      assert arguments[i] in req;
    } else if req != [] {
      InSuffix(arguments, k, req[0]);
    }
    forall n
      ensures n in names <==> exists i :: k <= i < |arguments| && IsRequiredInput(arguments[i]) && arguments[i].name == n
    {
      InReverse(Names(req), n);
      InNames(req, n);
      if n in names {
        var a :| a in req && a.name == n;
        InSuffix(arguments, k, a);
      }
      if exists i :: k <= i < |arguments| && IsRequiredInput(arguments[i]) && arguments[i].name == n {
        var i :| k <= i < |arguments| && IsRequiredInput(arguments[i]) && arguments[i].name == n;
        InSuffix(arguments, k, arguments[i]);
        assert arguments[i] in req;
      }
    }
  }

  /** On success the placeholders are the unbound outputs, last-declared
      first; optional inputs and bound outputs never appear among them. */
  lemma PlaceholdersAreUnboundOutputs(arguments: seq<Argument>, positional: seq<Value>, keywords: seq<(string, Value)>)
    ensures var r, k := Bind(arguments, positional, keywords), |positional|;
      r.Success? ==>
        (&& k <= |arguments|
         && r.value.placeholders == Reverse(Filter(arguments[k..], IsOutput))
         && forall a :: a in r.value.placeholders <==> a in arguments[k..] && IsOutput(a))
  {
    BindMatchesSpec(arguments, positional, keywords);
    var r, k := Bind(arguments, positional, keywords), |positional|;
    if r.Success? {
      var outs := Filter(arguments[k..], IsOutput);
      forall a ensures a in Reverse(outs) <==> a in outs {
        InReverse(outs, a);
      }
    }
  }

  /** A call binds exactly when it has no keywords, no surplus positional
      value, and leaves no required input unbound. */
  lemma BindSucceedsIff(arguments: seq<Argument>, positional: seq<Value>, keywords: seq<(string, Value)>)
    ensures Bind(arguments, positional, keywords).Success? <==>
      && |positional| <= |arguments|
      && keywords == []
      && forall i :: |positional| <= i < |arguments| ==> !IsRequiredInput(arguments[i])
  {
    BindMatchesSpec(arguments, positional, keywords);
    if |positional| <= |arguments| && keywords == [] {
      MissingRequiredReported(arguments, positional);
    }
  }
}

/** The keyword path as the wrapper evidently intends it: a keyword binds
    the matching unbound argument and removes it from the pool; a keyword
    naming an argument already bound is a duplicate binding. */
module IntendedBinder {
  import opened Values
  import opened Results
  import opened Lists
  import opened Arguments
  import opened Binder

  /** `list.remove(x)` for an `x` known to be in the list: drops its first
      occurrence. */
  function RemoveFirst(s: seq<Argument>, x: Argument): (r: seq<Argument>)
    requires x in s
    ensures multiset(r) + multiset{x} == multiset(s)
  {
    assert s == [s[0]] + s[1..];
    if s[0] == x then s[1..] else [s[0]] + RemoveFirst(s[1..], x)
  }

  /** The arguments of a list of bound pairs. */
  function ArgsOf(pairs: seq<(Argument, Value)>): (r: seq<Argument>)
    ensures |r| == |pairs|
  {
    if pairs == [] then [] else [pairs[0].0] + ArgsOf(pairs[1..])
  }

  lemma {:induction false} ArgsOfIndex(pairs: seq<(Argument, Value)>, j: nat)
    requires j < |pairs|
    ensures ArgsOf(pairs)[j] == pairs[j].0
  {
    if j > 0 {
      ArgsOfIndex(pairs[1..], j - 1);
    }
  }

  /** Taking `a` out of the pool and then the rest's arguments takes all
      of them out. */
  lemma TakenStep(pool: seq<Argument>, a: Argument, v: Value, left: seq<Argument>, rest: seq<(Argument, Value)>)
    requires a in pool
    requires multiset(left) + multiset(ArgsOf(rest)) == multiset(RemoveFirst(pool, a))
    ensures multiset(left) + multiset(ArgsOf([(a, v)] + rest)) == multiset(pool)
  {
    var pairs := [(a, v)] + rest;
    assert pairs[1..] == rest;
    assert ArgsOf(pairs) == [a] + ArgsOf(rest);
    assert multiset(ArgsOf(pairs)) == multiset{a} + multiset(ArgsOf(rest));
  }

  /** The pairs a keyword loop appends: one per keyword, in order, each
      an argument of the keyword's name with the keyword's value. */
  predicate PairsMatchKeywords(pairs: seq<(Argument, Value)>, keywords: seq<(string, Value)>)
  {
    && |pairs| == |keywords|
    && forall j :: 0 <= j < |pairs| ==> NameMatches(keywords[j].0, pairs[j].0) && pairs[j].1 == keywords[j].1
  }

  /** The keyword loop with `cmd_args.append((a, v))` and a well-formed
      duplicate-binding message: the pool left over and the pairs to
      append. */
  function BindKeywordsIntended(arguments: seq<Argument>, pool: seq<Argument>, keywords: seq<(string, Value)>)
    : (r: Result<(seq<Argument>, seq<(Argument, Value)>)>)
    decreases |keywords|
  {
    if keywords == [] then Success((pool, []))
    else
      var (keyword, v) := keywords[0];
      match MatchArg(keyword, pool)
      case None =>
        if MatchArg(keyword, arguments).None? then Failure(UnknownArgument(keyword))
        else Failure(DuplicateBinding(keyword))
      case Some(a) =>
        match BindKeywordsIntended(arguments, RemoveFirst(pool, a), keywords[1..])
        case Failure(e) => Failure(e)
        case Success((left, rest)) => Success((left, [(a, v)] + rest))
  }

  /** The pairs a successful keyword loop appends match the keywords one
      for one. */
  lemma {:induction false} KeywordPairsMatch(arguments: seq<Argument>, pool: seq<Argument>, keywords: seq<(string, Value)>)
    ensures var r := BindKeywordsIntended(arguments, pool, keywords);
      r.Success? ==> PairsMatchKeywords(r.value.1, keywords)
    decreases |keywords|
  {
    var r := BindKeywordsIntended(arguments, pool, keywords);
    if keywords != [] && r.Success? {
      var a := MatchArg(keywords[0].0, pool).value;
      var rest := BindKeywordsIntended(arguments, RemoveFirst(pool, a), keywords[1..]).value.1;
      KeywordPairsMatch(arguments, RemoveFirst(pool, a), keywords[1..]);
      assert r.value.1 == [(a, keywords[0].1)] + rest;
      forall j | 1 <= j < |keywords|
        ensures NameMatches(keywords[j].0, r.value.1[j].0) && r.value.1[j].1 == keywords[j].1
      {
        assert keywords[j] == keywords[1..][j - 1] && r.value.1[j] == rest[j - 1];
      }
    }
  }

  /** The pool left once the first `j` keywords have each taken the
      first argument of their name from it, or `None` when one of them
      found none there. */
  function PoolAfter(pool: seq<Argument>, keywords: seq<(string, Value)>, j: nat): Option<seq<Argument>>
    requires j <= |keywords|
  {
    if j == 0 then Some(pool)
    else match PoolAfter(pool, keywords, j - 1)
      case None => None
      case Some(p) =>
        match MatchArg(keywords[j - 1].0, p)
        case None => None
        case Some(a) => Some(RemoveFirst(p, a))
  }

  /** The first keyword's step, then the remaining keywords' steps. */
  lemma {:induction false} PoolAfterCons(pool: seq<Argument>, keywords: seq<(string, Value)>, j: nat, a: Argument)
    requires j < |keywords| && MatchArg(keywords[0].0, pool) == Some(a)
    ensures PoolAfter(pool, keywords, j + 1) == PoolAfter(RemoveFirst(pool, a), keywords[1..], j)
  {
    if j > 0 {
      var k, rest := j - 1, keywords[1..];
      PoolAfterCons(pool, keywords, k, a);
      assert rest[k] == keywords[j];
      assert k + 1 == j;
    }
  }

  /** A first keyword that finds nothing in the pool stops every later
      step. */
  lemma {:induction false} PoolAfterStuck(pool: seq<Argument>, keywords: seq<(string, Value)>, j: nat)
    requires 1 <= j <= |keywords| && MatchArg(keywords[0].0, pool).None?
    ensures PoolAfter(pool, keywords, j).None?
  {
    if j > 1 {
      PoolAfterStuck(pool, keywords, j - 1);
    }
  }

  /** The intended keyword loop succeeds exactly when every keyword in
      turn finds an argument of its name still in the pool, and then
      leaves the pool those steps leave. */
  lemma {:induction false} KeywordsSucceedIff(arguments: seq<Argument>, pool: seq<Argument>, keywords: seq<(string, Value)>)
    ensures var r, left := BindKeywordsIntended(arguments, pool, keywords), PoolAfter(pool, keywords, |keywords|);
      && (r.Success? <==> left.Some?)
      && (r.Success? ==> r.value.0 == left.value)
    decreases |keywords|
  {
    if keywords != [] {
      var m := MatchArg(keywords[0].0, pool);
      if m.None? {
        PoolAfterStuck(pool, keywords, |keywords|);
      } else {
        var rest, smaller := keywords[1..], RemoveFirst(pool, m.value);
        KeywordStep(arguments, pool, keywords, m.value);
        KeywordsSucceedIff(arguments, smaller, rest);
        PoolAfterCons(pool, keywords, |rest|, m.value);
        assert |rest| + 1 == |keywords|;
      }
    }
  }

  /** One step of the intended keyword loop: a keyword that finds `a` in
      the pool leaves what the rest of the keywords leave on the pool
      without `a`, or fails as they do. */
  lemma KeywordStep(arguments: seq<Argument>, pool: seq<Argument>, keywords: seq<(string, Value)>, a: Argument)
    requires keywords != [] && MatchArg(keywords[0].0, pool) == Some(a)
    ensures var r, sub := BindKeywordsIntended(arguments, pool, keywords), BindKeywordsIntended(arguments, RemoveFirst(pool, a), keywords[1..]);
      && (r.Success? <==> sub.Success?)
      && (r.Success? ==> r.value.0 == sub.value.0)
  {
  }

  /** A keyword loop that fails names one of the keywords, which found no
      argument of its name left in the pool at its step: as unknown when
      no declared argument has its name, as a duplicate when one does,
      that is, when that argument was already bound. */
  lemma {:induction false} KeywordFailureNamed(arguments: seq<Argument>, pool: seq<Argument>, keywords: seq<(string, Value)>)
    ensures var r := BindKeywordsIntended(arguments, pool, keywords);
      r.Failure? ==>
        exists j :: 0 <= j < |keywords| && PoolAfter(pool, keywords, j).Some?
          && KeywordRejected(arguments, PoolAfter(pool, keywords, j).value, keywords[j].0, r.error)
    decreases |keywords|
  {
    var r := BindKeywordsIntended(arguments, pool, keywords);
    if keywords != [] && r.Failure? {
      var m := MatchArg(keywords[0].0, pool);
      if m.None? {
        assert PoolAfter(pool, keywords, 0) == Some(pool);
        assert KeywordRejected(arguments, pool, keywords[0].0, r.error);
      } else {
        var rest := keywords[1..];
        KeywordFailureNamed(arguments, RemoveFirst(pool, m.value), rest);
        var j :| 0 <= j < |rest| && PoolAfter(RemoveFirst(pool, m.value), rest, j).Some?
          && KeywordRejected(arguments, PoolAfter(RemoveFirst(pool, m.value), rest, j).value, rest[j].0, r.error);
        PoolAfterCons(pool, keywords, j, m.value);
        assert rest[j] == keywords[j + 1];
      }
    }
  }

  /** The error a keyword is rejected with when no argument of its name is
      left in `pool`. */
  predicate KeywordRejected(arguments: seq<Argument>, pool: seq<Argument>, keyword: string, e: Error)
  {
    && MatchArg(keyword, pool).None?
    && (|| (e == UnknownArgument(keyword) && MatchArg(keyword, arguments).None?)
        || (e == DuplicateBinding(keyword) && MatchArg(keyword, arguments).Some?))
  }

  /** The arguments the keywords bind are taken out of the pool: what is
      left plus what was bound is exactly the pool. */
  lemma {:induction false} KeywordsTakenFromPool(arguments: seq<Argument>, pool: seq<Argument>, keywords: seq<(string, Value)>)
    ensures var r := BindKeywordsIntended(arguments, pool, keywords);
      r.Success? ==> multiset(r.value.0) + multiset(ArgsOf(r.value.1)) == multiset(pool)
    decreases |keywords|
  {
    if keywords != [] {
      var (keyword, v) := keywords[0];
      var m := MatchArg(keyword, pool);
      if m.Some? {
        var a := m.value;
        KeywordsTakenFromPool(arguments, RemoveFirst(pool, a), keywords[1..]);
        var r := BindKeywordsIntended(arguments, RemoveFirst(pool, a), keywords[1..]);
        if r.Success? {
          TakenStep(pool, a, v, r.value.0, r.value.1);
        }
      }
    }
  }

  /** The binder with the keyword path it evidently intends. */
  function BindIntended(arguments: seq<Argument>, positional: seq<Value>, keywords: seq<(string, Value)>): (r: Result<Bound>)
  {
    var st :- BindPositional(State(Reverse(arguments), []), positional);
    var kw :- BindKeywordsIntended(arguments, st.available, keywords);
    Finish(State(kw.0, st.bound + kw.1))
  }

  /** Without keywords the intended binder is the binder as written. */
  lemma IntendedAgreesWithoutKeywords(arguments: seq<Argument>, positional: seq<Value>)
    ensures BindIntended(arguments, positional, []) == Bind(arguments, positional, [])
  {
    var p := BindPositional(State(Reverse(arguments), []), positional);
    if p.Success? {
      assert p.value.bound + [] == p.value.bound;
    }
  }

  /** The positional loop runs out of pool exactly when there are more
      values than arguments. */
  lemma PositionalPoolExhausted(arguments: seq<Argument>, positional: seq<Value>)
    ensures |positional| > |arguments| ==>
      BindPositional(State(Reverse(arguments), []), positional) == Failure(TooManyArguments)
  {
    assert arguments[0..] == arguments;
    BindPositionalClosed(arguments, 0, [], positional);
  }

  /** The intended binder fails with "too many arguments" exactly when
      there are more values than declared arguments: the keyword loop and
      the final check never raise it. */
  lemma PositionalOverflow(arguments: seq<Argument>, positional: seq<Value>, keywords: seq<(string, Value)>)
    ensures BindIntended(arguments, positional, keywords) == Failure(TooManyArguments) <==> |positional| > |arguments|
  {
    PositionalPoolExhausted(arguments, positional);
    if |positional| <= |arguments| {
      var st := PositionalState(arguments, positional);
      KeywordFailureNamed(arguments, st.available, keywords);
    }
  }

  /** A keyword that names only an argument already bound by position is
      reported as a duplicate binding. */
  lemma IntendedDuplicateBinding(arguments: seq<Argument>, positional: seq<Value>, keywords: seq<(string, Value)>)
    requires |positional| <= |arguments| && keywords != []
    requires exists i :: 0 <= i < |positional| && NameMatches(keywords[0].0, arguments[i])
    requires forall i :: |positional| <= i < |arguments| ==> !NameMatches(keywords[0].0, arguments[i])
    ensures BindIntended(arguments, positional, keywords) == Failure(DuplicateBinding(keywords[0].0))
  {
    var st := PositionalState(arguments, positional);
    MatchReversedPool(arguments, |positional|, keywords[0].0);
  }

  /** Every argument bound by a keyword was in the pool. */
  lemma KeywordArgumentsFromPool(pool: seq<Argument>, rest: seq<Argument>, pairs: seq<(Argument, Value)>, j: nat)
    requires j < |pairs|
    requires multiset(rest) + multiset(ArgsOf(pairs)) == multiset(pool)
    ensures pairs[j].0 in pool
  {
    ArgsOfIndex(pairs, j);
    assert ArgsOf(pairs)[j] in ArgsOf(pairs);
    assert pairs[j].0 in multiset(ArgsOf(pairs));
    assert pairs[j].0 in multiset(pool);
  }

  /** The arguments keywords bind on the pool of `arguments[k..]` come
      from `arguments[k..]`. */
  lemma KeywordPairsInSuffix(arguments: seq<Argument>, k: nat, keywords: seq<(string, Value)>)
    requires k <= |arguments|
    ensures var r := BindKeywordsIntended(arguments, Reverse(arguments[k..]), keywords);
      r.Success? ==> forall p :: p in r.value.1 ==> p.0 in arguments[k..]
  {
    var pool := Reverse(arguments[k..]);
    var r := BindKeywordsIntended(arguments, pool, keywords);
    if r.Success? {
      var kw := r.value;
      KeywordsTakenFromPool(arguments, pool, keywords);
      forall p | p in kw.1
        ensures p.0 in arguments[k..]
      {
        var j :| 0 <= j < |kw.1| && kw.1[j] == p;
        KeywordArgumentsFromPool(pool, kw.0, kw.1, j);
        InReverse(arguments[k..], p.0);
      }
    }
  }

  /** With the intended keyword path, keywords bind after the positional
      values, each to a matching argument that no positional value took. */
  lemma IntendedKeywordsBind(arguments: seq<Argument>, positional: seq<Value>, keywords: seq<(string, Value)>)
    ensures var r, k := BindIntended(arguments, positional, keywords), |positional|;
      r.Success? ==>
        (&& k <= |arguments|
         && |r.value.bound| >= k
         && r.value.bound[..k] == Pairs(arguments[..k], positional)
         && PairsMatchKeywords(r.value.bound[k..], keywords)
         && forall p :: p in r.value.bound[k..] ==> p.0 in arguments[k..])
  {
    var r := BindIntended(arguments, positional, keywords);
    PositionalPoolExhausted(arguments, positional);
    if r.Success? {
      var k := |positional|;
      var st := PositionalState(arguments, positional);
      var kw := BindKeywordsIntended(arguments, st.available, keywords).value;
      KeywordPairsInSuffix(arguments, k, keywords);
      KeywordPairsMatch(arguments, st.available, keywords);
      assert r.value.bound == st.bound + kw.1;
      assert r.value.bound[..k] == st.bound && r.value.bound[k..] == kw.1;
    }
  }

  /** What the final check makes of a pool left over: success exactly
      when no required input is in it, its outputs as placeholders, or
      the names of its required inputs as missing. */
  lemma FinishLeftovers(left: seq<Argument>, bound: seq<(Argument, Value)>)
    ensures var r := Finish(State(left, bound));
      && (r.Success? <==> forall a :: a in left ==> !IsRequiredInput(a))
      && (r.Success? ==> forall a :: a in r.value.placeholders <==> a in left && IsOutput(a))
      && (r.Failure? ==>
            && r.error.MissingRequired?
            && forall n :: n in r.error.names <==> exists a :: a in left && IsRequiredInput(a) && a.name == n)
  {
    var req := Filter(left, IsRequiredInput);
    if req != [] {
      assert req[0] in left;
    }
    forall n
      ensures n in Names(req) <==> exists a :: a in left && IsRequiredInput(a) && a.name == n
    {
      InNames(req, n);
    }
  }

  /** The pool the intended keyword loop leaves is what neither the
      positional values nor the keywords took. */
  lemma LeftoverIsUnbound(arguments: seq<Argument>, k: nat, keywords: seq<(string, Value)>)
    requires k <= |arguments|
    ensures var kw := BindKeywordsIntended(arguments, Reverse(arguments[k..]), keywords);
      kw.Success? ==> multiset(kw.value.0) == multiset(arguments[k..]) - multiset(ArgsOf(kw.value.1))
  {
    KeywordsTakenFromPool(arguments, Reverse(arguments[k..]), keywords);
    ReversePermutes(arguments[k..]);
  }

  /** Once the keywords have bound, what is left unbound is what neither
      the positional values nor the keywords took: the call succeeds
      exactly when no required input is among it, its outputs are the
      placeholders, and otherwise the missing names are those of its
      required inputs. */
  lemma IntendedLeftovers(arguments: seq<Argument>, positional: seq<Value>, keywords: seq<(string, Value)>)
    ensures var k := |positional|;
      k <= |arguments| ==>
        var kw := BindKeywordsIntended(arguments, Reverse(arguments[k..]), keywords);
        kw.Success? ==>
          var r, unbound := BindIntended(arguments, positional, keywords), multiset(arguments[k..]) - multiset(ArgsOf(kw.value.1));
          && (r.Success? <==> forall a :: a in unbound ==> !IsRequiredInput(a))
          && (r.Success? ==> forall a :: a in r.value.placeholders <==> a in unbound && IsOutput(a))
          && (r.Failure? ==>
                && r.error.MissingRequired?
                && forall n :: n in r.error.names <==> exists a :: a in unbound && IsRequiredInput(a) && a.name == n)
  {
    var k := |positional|;
    if k <= |arguments| {
      var kw := BindKeywordsIntended(arguments, Reverse(arguments[k..]), keywords);
      if kw.Success? {
        var st := PositionalState(arguments, positional);
        var left := kw.value.0;
        assert BindIntended(arguments, positional, keywords) == Finish(State(left, st.bound + kw.value.1));
        LeftoverIsUnbound(arguments, k, keywords);
        FinishLeftovers(left, st.bound + kw.value.1);
        assert forall a :: a in multiset(left) <==> a in left;
      }
    }
  }
}

=== FILE: commands.dfy ===
/** A toolkit command: its declaration, the command function generated
    from it (binding, staging, the command line, reading results back,
    with the scratch directory's lifetime as a trace of effects) and its
    usage text. */
module Commands {
  import opened Values
  import opened Results
  import opened Lists
  import opened Strings
  import opened Settings
  import opened Arguments
  import opened Binder
  import IntendedBinder

  /** A command: the executable's name and its declared arguments. */
  datatype Command = Command(name: string, arguments: seq<Argument>)

  /** The argument every command gets after its declared ones. */
  const AsArray := Argument("as_array", None, true, "boolean", false)

  /** The command constructor: the declared arguments followed by the
      optional `as_array` argument. */
  function NewCommand(name: string, arguments: seq<Argument>): (c: Command)
    ensures c.name == name
    ensures |c.arguments| == |arguments| + 1
    ensures c.arguments[..|arguments|] == arguments
    ensures c.arguments[|arguments|] == AsArray && !IsOutput(AsArray) && AsArray.optional
  {
    assert AsArray.kind[0] != "output"[0];
    Command(name, arguments + [AsArray])
  }

  /** The effects one call has on the file system and processes. */
  datatype Event =
    | MakeScratch                  // a fresh scratch directory is created
    | EnterScratch                 // the working directory moves into it
    | WriteGrid(grid: StagedGrid)  // an input grid is written there
    | RunCommand(line: string)     // the command line is run
    | ReadGrid(file: string)       // an output grid is read back
    | RemoveScratch                // the scratch directory is deleted
    | RestoreDir                   // the previous working directory is restored

  /** A partial computation over a list: its outcome, and the effects it
      had before it finished or failed. */
  datatype Run = Run(result: Result<seq<string>>, effects: seq<Event>)

  function StagedWrites(t: Token): seq<Event>
  {
    match t.staged
    case None => []
    case Some(g) => [WriteGrid(g)]
  }

  /** Generates the tokens of the bound pairs in order, writing staged
      grids as it goes; the first failure ends it. */
  function Tokens(pairs: seq<(Argument, Value)>): (r: Run)
    ensures r.result.Success? <==> forall i :: 0 <= i < |pairs| ==> Generate(pairs[i].0, pairs[i].1).Success?
    ensures r.result.Success? ==>
      && |r.result.value| == |pairs|
      && forall i :: 0 <= i < |pairs| ==> r.result.value[i] == Generate(pairs[i].0, pairs[i].1).value.text
    ensures forall e :: e in r.effects ==> e.WriteGrid?
  {
    if pairs == [] then Run(Success([]), [])
    else
      match Generate(pairs[0].0, pairs[0].1)
      case Failure(e) => Run(Failure(e), [])
      case Success(t) =>
        var rest := Tokens(pairs[1..]);
        assert forall i :: 1 <= i < |pairs| ==> pairs[i] == pairs[1..][i - 1];
        match rest.result
        case Failure(e) => Run(Failure(e), StagedWrites(t) + rest.effects)
        case Success(ts) => Run(Success([t.text] + ts), StagedWrites(t) + rest.effects)
  }

  /** The pair at `k` is the first whose token cannot be generated. */
  predicate FirstFailure(pairs: seq<(Argument, Value)>, k: nat)
  {
    && k < |pairs|
    && (forall j :: 0 <= j < k ==> Generate(pairs[j].0, pairs[j].1).Success?)
    && Generate(pairs[k].0, pairs[k].1).Failure?
  }

  /** The grid written for one pair, if its token generates and stages
      one. */
  function PairWrites(p: (Argument, Value)): seq<Event>
  {
    match Generate(p.0, p.1)
    case Success(t) => StagedWrites(t)
    case Failure(_) => []
  }

  /** The grids written for the first `k` pairs, in order. */
  function WritesUpTo(pairs: seq<(Argument, Value)>, k: nat): (w: seq<Event>)
    requires k <= |pairs|
  {
    if k == 0 then [] else WritesUpTo(pairs, k - 1) + PairWrites(pairs[k - 1])
  }

  lemma {:induction false} WritesUpToCons(pairs: seq<(Argument, Value)>, k: nat)
    requires k < |pairs|
    ensures WritesUpTo(pairs, k + 1) == PairWrites(pairs[0]) + WritesUpTo(pairs[1..], k)
  {
    var w := PairWrites(pairs[0]);
    if k == 0 {
      assert WritesUpTo(pairs, 1) == [] + w;
      assert WritesUpTo(pairs[1..], 0) == [];
    } else {
      var rest, j := pairs[1..], k - 1;
      assert rest[j] == pairs[k];
      WritesUpToCons(pairs, j);
      assert j + 1 == k;
      var mid, last := WritesUpTo(rest, j), PairWrites(pairs[k]);
      assert WritesUpTo(pairs, k + 1) == (w + mid) + last;
      assert WritesUpTo(rest, k) == mid + last;
      assert (w + mid) + last == w + (mid + last);
    }
  }

  /** Generating every token writes the input grids of all pairs, in
      order. */
  lemma {:induction false} TokensWriteAll(pairs: seq<(Argument, Value)>)
    ensures Tokens(pairs).result.Success? ==> Tokens(pairs).effects == WritesUpTo(pairs, |pairs|)
  {
    if pairs != [] && Tokens(pairs).result.Success? {
      var rest := pairs[1..];
      TokensWriteAll(rest);
      WritesUpToCons(pairs, |pairs| - 1);
    }
  }

  /** When a token cannot be generated, the error is that of the first
      failing pair, and only the grids of the pairs before it are
      written. */
  lemma {:induction false} TokensStopAtFirstFailure(pairs: seq<(Argument, Value)>)
    ensures var r := Tokens(pairs);
      r.result.Failure? ==>
        exists k: nat :: FirstFailure(pairs, k)
          && r.result.error == Generate(pairs[k].0, pairs[k].1).error
          && r.effects == WritesUpTo(pairs, k)
  {
    var r := Tokens(pairs);
    if pairs != [] && r.result.Failure? {
      var rest := pairs[1..];
      if Generate(pairs[0].0, pairs[0].1).Failure? {
        assert FirstFailure(pairs, 0);
      } else {
        TokensStopAtFirstFailure(rest);
        var k: nat :| FirstFailure(rest, k)
          && Tokens(rest).result.error == Generate(rest[k].0, rest[k].1).error
          && Tokens(rest).effects == WritesUpTo(rest, k);
        assert rest[k] == pairs[k + 1];
        assert forall j :: 1 <= j <= k ==> pairs[j] == rest[j - 1];
        assert FirstFailure(pairs, k + 1);
        WritesUpToCons(pairs, k);
      }
    }
  }

  /** Reads the placeholders back in order; the first argument that is not
      an output grid ends it. */
  function Reads(outputs: seq<Argument>): (r: Run)
    ensures r.result.Success? <==> forall i :: 0 <= i < |outputs| ==> outputs[i].kind == OUTPUT_GRID
    ensures r.result.Success? ==>
      && |r.result.value| == |outputs|
      && |r.effects| == |outputs|
      && forall i :: 0 <= i < |outputs| ==> r.result.value[i] == Stem(outputs[i]) + ".tif" && r.effects[i] == ReadGrid(r.result.value[i])
    ensures forall e :: e in r.effects ==> e.ReadGrid?
  {
    if outputs == [] then Run(Success([]), [])
    else
      match ReadResult(outputs[0])
      case Failure(e) => Run(Failure(e), [])
      case Success(file) =>
        var rest := Reads(outputs[1..]);
        assert forall i :: 1 <= i < |outputs| ==> outputs[i] == outputs[1..][i - 1];
        assert |[ReadGrid(file)] + rest.effects| == 1 + |rest.effects|;
        match rest.result
        case Failure(e) => Run(Failure(e), [ReadGrid(file)] + rest.effects)
        case Success(files) => Run(Success([file] + files), [ReadGrid(file)] + rest.effects)
  }

  /** The first placeholder that is not an output grid, at `k`: every
      earlier one is. */
  predicate FirstUnreadable(outputs: seq<Argument>, k: nat)
  {
    && k < |outputs|
    && outputs[k].kind != OUTPUT_GRID
    && forall j :: 0 <= j < k ==> outputs[j].kind == OUTPUT_GRID
  }

  /** Read-back failed at the first placeholder that is not an output
      grid, at `k`, having read the grids of the ones before it. */
  predicate ReadsFailedAt(outputs: seq<Argument>, r: Run, k: nat)
  {
    && FirstUnreadable(outputs, k)
    && r.result == Failure(CantReadOutput(outputs[k].name))
    && |r.effects| == k
    && forall j :: 0 <= j < k ==> r.effects[j] == ReadGrid(Stem(outputs[j]) + ".tif")
  }

  /** When read-back fails, the error names the first placeholder that is
      not an output grid, and the grids of the placeholders before it were
      read, in order. */
  lemma {:induction false} ReadsStopAtFirstFailure(outputs: seq<Argument>)
    ensures Reads(outputs).result.Failure? ==> exists k: nat :: ReadsFailedAt(outputs, Reads(outputs), k)
  {
    var r := Reads(outputs);
    if outputs != [] && r.result.Failure? {
      if outputs[0].kind != OUTPUT_GRID {
        assert ReadsFailedAt(outputs, r, 0);
      } else {
        var rest, file := outputs[1..], Stem(outputs[0]) + ".tif";
        var sub := Reads(rest);
        ReadsStopAtFirstFailure(rest);
        var k: nat :| ReadsFailedAt(rest, sub, k);
        assert r == Run(sub.result, [ReadGrid(file)] + sub.effects);
        forall j | 0 <= j < k + 1
          ensures r.effects[j] == ReadGrid(Stem(outputs[j]) + ".tif")
        {
          if j > 0 {
            assert r.effects[j] == sub.effects[j - 1] && outputs[j] == rest[j - 1];
          }
        }
        assert forall j :: 1 <= j <= k ==> outputs[j] == rest[j - 1];
        assert ReadsFailedAt(outputs, r, k + 1);
      }
    }
  }

  /** The command line: the launcher prefix, a space, the executable path
      glued to the command name, a space, and the tokens joined by
      spaces. */
  function CommandLine(cfg: Config, name: string, tokens: seq<string>): (line: string)
  {
    MpiCmd(cfg) + " " + cfg.taudemPath + name + " " + Join(tokens)
  }

  /** The tokens of a command line follow a prefix fixed by the settings
      and the command name; the bound arguments' tokens come before the
      placeholders'. */
  lemma CommandLineLayout(cfg: Config, name: string, bound: seq<string>, placeholders: seq<string>)
    ensures var line, prefix := CommandLine(cfg, name, bound + placeholders), MpiCmd(cfg) + " " + cfg.taudemPath + name + " ";
      && |line| >= |prefix|
      && line[..|prefix|] == prefix
      && (bound != [] && placeholders != [] ==> line[|prefix|..] == Join(bound) + " " + Join(placeholders))
      && (!cfg.useMpi ==> line[0] == ' ')
  {
    if bound != [] && placeholders != [] {
      JoinAppend(bound, placeholders);
    }
  }

  /** A call's result: a single value when exactly one output is read,
      a tuple otherwise.  A grid read back is represented by the file it
      is read from. */
  datatype Returned = Single(file: string) | Tuple(files: seq<string>)

  datatype Outcome = Outcome(result: Result<Returned>, trace: seq<Event>)

  function PlaceholderPairs(outputs: seq<Argument>): seq<(Argument, Value)>
  {
    Map(outputs, (a: Argument) => (a, Other))
  }

  /** Every pair the command line is generated from: bound arguments,
      then placeholders (bound to `None`). */
  function AllPairs(b: Bound): seq<(Argument, Value)>
  {
    b.bound + PlaceholderPairs(b.placeholders)
  }

  predicate RunsOnce(trace: seq<Event>, line: string)
  {
    exists j :: 0 <= j < |trace| && trace[j] == RunCommand(line)
      && forall i :: 0 <= i < |trace| && i != j ==> !trace[i].RunCommand?
  }

  /** The file names read back, as the call returns them. */
  function Shape(files: seq<string>): Returned
  {
    if |files| != 1 then Tuple(files) else Single(files[0])
  }

  /** The body of the generated command function after binding: binder
      errors are raised before any effect; afterwards the scratch
      directory is created and entered, input grids are written while the
      tokens are generated, the command line is run, and the outputs are
      read back; on every exit path the directory is deleted and left. */
  function Execute(cfg: Config, c: Command, binding: Result<Bound>): (r: Outcome)
    ensures binding.Failure? ==> r == Outcome(Failure(binding.error), [])
  {
    match binding
    case Failure(e) => Outcome(Failure(e), [])
    case Success(b) =>
      var opening, closing := [MakeScratch, EnterScratch], [RemoveScratch, RestoreDir];
      var gen := Tokens(AllPairs(b));
      match gen.result
      case Failure(e) => Outcome(Failure(e), opening + gen.effects + closing)
      case Success(tokens) =>
        var back := Reads(b.placeholders);
        var trace := opening + (gen.effects + [RunCommand(CommandLine(cfg, c.name, tokens))] + back.effects) + closing;
        match back.result
        case Failure(e) => Outcome(Failure(e), trace)
        case Success(files) => Outcome(Success(Shape(files)), trace)
  }

  /** The layout of a trace framed by entering and leaving the scratch
      directory. */
  lemma Framed(mid: seq<Event>)
    ensures var t := [MakeScratch, EnterScratch] + mid + [RemoveScratch, RestoreDir];
      && |t| == |mid| + 4
      && t[..2] == [MakeScratch, EnterScratch]
      && t[|t| - 2..] == [RemoveScratch, RestoreDir]
      && forall i :: 2 <= i < |t| - 2 ==> t[i] == mid[i - 2]
  {
  }

  /** The layout of the middle of a trace in which the command ran. */
  lemma RunInMiddle(writes: seq<Event>, line: string, back: seq<Event>)
    ensures var m := writes + [RunCommand(line)] + back;
      && |m| == |writes| + 1 + |back|
      && m[|writes|] == RunCommand(line)
      && (forall i :: 0 <= i < |writes| ==> m[i] == writes[i])
      && forall i :: |writes| < i < |m| ==> m[i] == back[i - |writes| - 1]
  {
  }

  /** The effects between entering and leaving the scratch directory. */
  function Middle(cfg: Config, c: Command, b: Bound): seq<Event>
  {
    var gen := Tokens(AllPairs(b));
    if gen.result.Failure? then gen.effects
    else gen.effects + [RunCommand(CommandLine(cfg, c.name, gen.result.value))] + Reads(b.placeholders).effects
  }

  lemma TraceIsFramed(cfg: Config, c: Command, b: Bound)
    ensures Execute(cfg, c, Success(b)).trace == [MakeScratch, EnterScratch] + Middle(cfg, c, b) + [RemoveScratch, RestoreDir]
  {
  }

  /** `readBack` are the read-back events of the first `k` placeholders, in
      order: each readBack the file named after its flag or name. */
  predicate ReadsOfFirst(outputs: seq<Argument>, readBack: seq<Event>, k: nat)
  {
    && k <= |outputs|
    && |readBack| == k
    && forall j :: 0 <= j < k ==> readBack[j] == ReadGrid(Stem(outputs[j]) + ".tif")
  }

  /** The first pair whose token cannot be generated is unique. */
  lemma FirstFailureUnique(pairs: seq<(Argument, Value)>, k: nat, k': nat)
    requires FirstFailure(pairs, k) && FirstFailure(pairs, k')
    ensures k == k'
  {
  }

  /** A bound call whose `k`-th pair is the first that cannot be
      generated writes the grids of the pairs before it, runs nothing,
      readBack nothing, and cleans up. */
  lemma TraceWhenTokensFail(cfg: Config, c: Command, b: Bound, k: nat)
    requires FirstFailure(AllPairs(b), k)
    ensures Execute(cfg, c, Success(b)).trace
      == [MakeScratch, EnterScratch] + WritesUpTo(AllPairs(b), k) + [RemoveScratch, RestoreDir]
  {
    var pairs := AllPairs(b);
    assert Generate(pairs[k].0, pairs[k].1).Failure?;
    TokensStopAtFirstFailure(pairs);
    var k': nat :| FirstFailure(pairs, k') && Tokens(pairs).effects == WritesUpTo(pairs, k');
    FirstFailureUnique(pairs, k, k');
    TraceIsFramed(cfg, c, b);
  }

  /** The read-back events are those of every placeholder, in order, or,
      when one is not an output grid, of the placeholders before it. */
  lemma ReadBackEvents(outputs: seq<Argument>)
    ensures var r := Reads(outputs);
      && (r.result.Success? ==> ReadsOfFirst(outputs, r.effects, |outputs|))
      && (r.result.Failure? ==> exists k: nat :: FirstUnreadable(outputs, k) && ReadsOfFirst(outputs, r.effects, k))
  {
    var r := Reads(outputs);
    if r.result.Failure? {
      ReadsStopAtFirstFailure(outputs);
      var k: nat :| ReadsFailedAt(outputs, r, k);
      assert FirstUnreadable(outputs, k) && ReadsOfFirst(outputs, r.effects, k);
    }
  }

  /** Concatenation regrouped, for the framed trace. */
  lemma Regroup(opening: seq<Event>, writes: seq<Event>, run: seq<Event>, readBack: seq<Event>, closing: seq<Event>)
    ensures opening + (writes + run + readBack) + closing == opening + writes + run + readBack + closing
  {
  }

  /** The trace of a bound call whose tokens all generate, in terms of
      the token and read-back runs. */
  lemma TraceAfterTokens(cfg: Config, c: Command, b: Bound)
    requires Tokens(AllPairs(b)).result.Success?
    ensures var gen := Tokens(AllPairs(b));
      Execute(cfg, c, Success(b)).trace
        == [MakeScratch, EnterScratch] + gen.effects + [RunCommand(CommandLine(cfg, c.name, gen.result.value))]
           + Reads(b.placeholders).effects + [RemoveScratch, RestoreDir]
  {
    var gen := Tokens(AllPairs(b));
    TraceIsFramed(cfg, c, b);
    Regroup([MakeScratch, EnterScratch], gen.effects, [RunCommand(CommandLine(cfg, c.name, gen.result.value))],
      Reads(b.placeholders).effects, [RemoveScratch, RestoreDir]);
  }

  /** A bound call whose tokens all generate writes every staged grid in
      pair order, then runs the command line of those tokens once, then
      reads the placeholders' grids in order: all of them, or, when one is
      not an output grid, the ones before it; then it cleans up. */
  lemma TraceWhenTokensGenerate(cfg: Config, c: Command, b: Bound)
    requires Tokens(AllPairs(b)).result.Success?
    ensures var pairs, outputs, readBack := AllPairs(b), b.placeholders, Reads(b.placeholders).effects;
      && Execute(cfg, c, Success(b)).trace
        == [MakeScratch, EnterScratch] + WritesUpTo(pairs, |pairs|)
           + [RunCommand(CommandLine(cfg, c.name, Tokens(pairs).result.value))] + readBack + [RemoveScratch, RestoreDir]
      && (Reads(outputs).result.Success? ==> ReadsOfFirst(outputs, readBack, |outputs|))
      && (Reads(outputs).result.Failure? ==>
            exists k: nat :: FirstUnreadable(outputs, k) && ReadsOfFirst(outputs, readBack, k))
  {
    TokensWriteAll(AllPairs(b));
    TraceAfterTokens(cfg, c, b);
    ReadBackEvents(b.placeholders);
  }

  /** Once binding succeeds, the trace opens by creating and entering the
      scratch directory and closes, whatever happened in between, by
      deleting it and restoring the working directory. */
  lemma ScratchAlwaysCleanedUp(cfg: Config, c: Command, binding: Result<Bound>)
    requires binding.Success?
    ensures var t := Execute(cfg, c, binding).trace;
      && |t| >= 4
      && t[..2] == [MakeScratch, EnterScratch]
      && t[|t| - 2..] == [RemoveScratch, RestoreDir]
      && forall i :: 2 <= i < |t| - 2 ==> t[i].WriteGrid? || t[i].RunCommand? || t[i].ReadGrid?
  {
    var b := binding.value;
    var mid := Middle(cfg, c, b);
    TraceIsFramed(cfg, c, b);
    Framed(mid);
    var gen := Tokens(AllPairs(b));
    if gen.result.Success? {
      RunInMiddle(gen.effects, CommandLine(cfg, c.name, gen.result.value), Reads(b.placeholders).effects);
    }
    forall i | 0 <= i < |mid|
      ensures mid[i].WriteGrid? || mid[i].RunCommand? || mid[i].ReadGrid?
    {
      if gen.result.Failure? || i < |gen.effects| {
        assert mid[i] in gen.effects;
      } else if i > |gen.effects| {
        assert mid[i] in Reads(b.placeholders).effects;
      }
    }
  }

  /** When a token cannot be generated, nothing is run. */
  lemma NoRunWithoutTokens(cfg: Config, c: Command, b: Bound)
    requires Tokens(AllPairs(b)).result.Failure?
    ensures var t := Execute(cfg, c, Success(b)).trace;
      forall i :: 0 <= i < |t| ==> !t[i].RunCommand?
  {
    var gen := Tokens(AllPairs(b));
    var t := Execute(cfg, c, Success(b)).trace;
    TraceIsFramed(cfg, c, b);
    Framed(gen.effects);
    forall i | 0 <= i < |t|
      ensures !t[i].RunCommand?
    {
      if 2 <= i < |t| - 2 {
        assert t[i] in gen.effects;
      }
    }
  }

  /** When every token is generated, the command line built from them is
      run exactly once. */
  lemma RunOnceWithTokens(cfg: Config, c: Command, b: Bound)
    requires Tokens(AllPairs(b)).result.Success?
    ensures RunsOnce(Execute(cfg, c, Success(b)).trace, CommandLine(cfg, c.name, Tokens(AllPairs(b)).result.value))
  {
    var gen := Tokens(AllPairs(b));
    var t := Execute(cfg, c, Success(b)).trace;
    var line := CommandLine(cfg, c.name, gen.result.value);
    var back := Reads(b.placeholders).effects;
    TraceIsFramed(cfg, c, b);
    Framed(Middle(cfg, c, b));
    RunInMiddle(gen.effects, line, back);
    var j := 2 + |gen.effects|;
    assert t[j] == RunCommand(line);
    forall i | 0 <= i < |t| && i != j
      ensures !t[i].RunCommand?
    {
      if 2 <= i < j {
        assert t[i] in gen.effects;
      } else if j < i < |t| - 2 {
        assert t[i] in back;
      }
    }
  }

  /** The command runs only when every token could be generated, and then
      exactly once, with the command line built from those tokens. */
  lemma RunsOnlyWhenTokensGenerated(cfg: Config, c: Command, binding: Result<Bound>)
    requires binding.Success?
    ensures var t, gen := Execute(cfg, c, binding).trace, Tokens(AllPairs(binding.value));
      && ((exists i :: 0 <= i < |t| && t[i].RunCommand?) <==> gen.result.Success?)
      && (gen.result.Success? ==> RunsOnce(t, CommandLine(cfg, c.name, gen.result.value)))
  {
    var b := binding.value;
    if Tokens(AllPairs(b)).result.Failure? {
      NoRunWithoutTokens(cfg, c, b);
    } else {
      RunOnceWithTokens(cfg, c, b);
    }
  }

  /** A successful call returns a bare value for exactly one placeholder
      and a tuple otherwise, reading each placeholder's grid from the file
      its token named, in placeholder order. */
  lemma ResultShape(cfg: Config, c: Command, binding: Result<Bound>)
    ensures var r := Execute(cfg, c, binding).result;
      r.Success? ==>
        var outputs := binding.value.placeholders;
        && (r.value.Single? <==> |outputs| == 1)
        && (r.value.Single? ==> r.value.file == Stem(outputs[0]) + ".tif")
        && (r.value.Tuple? ==>
              (&& |r.value.files| == |outputs|
               && forall i :: 0 <= i < |outputs| ==> r.value.files[i] == Stem(outputs[i]) + ".tif"))
  {
  }

  /** Once bound, an error from generating a token or from reading an
      output back is the call's error, after the scratch directory is
      cleaned up; the call succeeds exactly when every token generates
      and every placeholder is an output grid, and then returns the files
      read back. */
  lemma BoundCallOutcome(cfg: Config, c: Command, b: Bound)
    ensures var r, gen, back := Execute(cfg, c, Success(b)).result, Tokens(AllPairs(b)), Reads(b.placeholders);
      && (gen.result.Failure? ==> r == Failure(gen.result.error))
      && (gen.result.Success? && back.result.Failure? ==> r == Failure(back.result.error))
      && (gen.result.Success? && back.result.Success? ==> r == Success(Shape(back.result.value)))
    ensures var r, pairs, outputs := Execute(cfg, c, Success(b)).result, AllPairs(b), b.placeholders;
      r.Success? <==>
        && (forall i :: 0 <= i < |pairs| ==> Generate(pairs[i].0, pairs[i].1).Success?)
        && (forall i :: 0 <= i < |outputs| ==> outputs[i].kind == OUTPUT_GRID)
  {
  }

  /** A bound call that fails raises the error of the first pair whose
      token cannot be generated or, when every token generates, the
      "can't read output" error of the first placeholder that is not an
      output grid. */
  lemma BoundCallFailsAtFirst(cfg: Config, c: Command, b: Bound)
    ensures var r, pairs, outputs := Execute(cfg, c, Success(b)).result, AllPairs(b), b.placeholders;
      && (Tokens(pairs).result.Failure? ==>
            exists k: nat :: FirstFailure(pairs, k) && r == Failure(Generate(pairs[k].0, pairs[k].1).error))
      && (Tokens(pairs).result.Success? && r.Failure? ==>
            exists k: nat :: FirstUnreadable(outputs, k) && r == Failure(CantReadOutput(outputs[k].name)))
  {
    var pairs := AllPairs(b);
    TokensStopAtFirstFailure(pairs);
    if Tokens(pairs).result.Success? {
      ReadsStopAtFirstFailure(b.placeholders);
    }
  }

  /** The generated command function, as written. */
  function Call(cfg: Config, c: Command, positional: seq<Value>, keywords: seq<(string, Value)>): (r: Outcome)
    ensures keywords != [] ==> r.result.Failure? && r.trace == []
    ensures |positional| > |c.arguments| ==> r == Outcome(Failure(TooManyArguments), [])
  {
    TooManyArgumentsFirst(c.arguments, positional, keywords);
    BindSucceedsIff(c.arguments, positional, keywords);
    Execute(cfg, c, Bind(c.arguments, positional, keywords))
  }

  /** The generated command function with the keyword path it evidently
      intends. */
  function CallIntended(cfg: Config, c: Command, positional: seq<Value>, keywords: seq<(string, Value)>): Outcome
  {
    Execute(cfg, c, IntendedBinder.BindIntended(c.arguments, positional, keywords))
  }

  /** A call that binds every output positionally returns an empty tuple. */
  lemma AllOutputsBoundGiveEmptyTuple(cfg: Config, c: Command, positional: seq<Value>)
    requires |positional| <= |c.arguments|
    requires forall i :: |positional| <= i < |c.arguments| ==> !IsOutput(c.arguments[i])
    ensures var r := Call(cfg, c, positional, []);
      r.result.Success? ==> r.result.value == Tuple([])
  {
    var binding := Bind(c.arguments, positional, []);
    PlaceholdersAreUnboundOutputs(c.arguments, positional, []);
    ResultShape(cfg, c, binding);
    if binding.Success? {
      var k := |positional|;
      var ph := binding.value.placeholders;
      if ph != [] {
        assert ph[0] in c.arguments[k..];
        InSuffix(c.arguments, k, ph[0]);
      }
    }
  }

  function Dashes(n: nat): (r: string)
    ensures |r| == n && forall i :: 0 <= i < n ==> r[i] == '-'
  {
    if n == 0 then "" else Dashes(n - 1) + "-"
  }

  /** One entry of the usage text. */
  function Entry(a: Argument): string
  {
    "* " + HelpText(a) + "\n\n"
  }

  /** The entries of a list of arguments, in order. */
  function Entries(args: seq<Argument>): string
  {
    if args == [] then "" else Entry(args[0]) + Entries(args[1..])
  }

  /** One pass of `doc_string` over all arguments, skipping those whose
      output-ness differs from `outputs`. */
  function Section(args: seq<Argument>, outputs: bool): string
  {
    if args == [] then ""
    else (if IsOutput(args[0]) == outputs then Entry(args[0]) else "") + Section(args[1..], outputs)
  }

  /** The heading of the usage text: the name, then a line of as many
      dashes, then a blank line. */
  function Heading(name: string): string
  {
    name + "\n" + Dashes(|name|) + "\n\n"
  }

  /** `doc_string`: the name underlined with dashes, the non-output
      arguments, then "Returns:" and the outputs. */
  function DocString(c: Command): (text: string)
  {
    Heading(c.name) + Section(c.arguments, false) + "Returns:\n" + Section(c.arguments, true)
  }

  lemma {:induction false} InputSectionIsFilter(args: seq<Argument>)
    ensures Section(args, false) == Entries(Filter(args, NotOutput))
  {
    if args != [] {
      InputSectionIsFilter(args[1..]);
      var rest := Filter(args[1..], NotOutput);
      if IsOutput(args[0]) {
        assert Filter(args, NotOutput) == rest;
      } else {
        assert Filter(args, NotOutput) == [args[0]] + rest;
        assert ([args[0]] + rest)[1..] == rest;
      }
    }
  }

  lemma {:induction false} OutputSectionIsFilter(args: seq<Argument>)
    ensures Section(args, true) == Entries(Filter(args, IsOutput))
  {
    if args != [] {
      OutputSectionIsFilter(args[1..]);
      var rest := Filter(args[1..], IsOutput);
      if IsOutput(args[0]) {
        assert Filter(args, IsOutput) == [args[0]] + rest;
        assert ([args[0]] + rest)[1..] == rest;
      } else {
        assert Filter(args, IsOutput) == rest;
      }
    }
  }

  lemma HeadingLayout(name: string)
    ensures var h, n := Heading(name), |name|;
      && |h| == 2 * n + 3
      && h[..n] == name
      && h[n] == '\n'
      && (forall i :: n < i <= 2 * n ==> h[i] == '-')
      && h[2 * n + 1..] == "\n\n"
  {
    var n := |name|;
    var h := Heading(name);
    forall i | n < i <= 2 * n
      ensures h[i] == '-'
    {
      assert h[i] == Dashes(n)[i - n - 1];
    }
  }

  /** The usage text is the heading, the non-output arguments in
      declaration order, then "Returns:" and the outputs in declaration
      order. */
  lemma DocStringLayout(c: Command)
    ensures DocString(c) == Heading(c.name) + Entries(Filter(c.arguments, NotOutput))
                            + "Returns:\n" + Entries(Filter(c.arguments, IsOutput))
  {
    InputSectionIsFilter(c.arguments);
    OutputSectionIsFilter(c.arguments);
  }

  /** The `as_array` argument is listed last among a command's inputs. */
  lemma AsArrayListedLast(name: string, arguments: seq<Argument>)
    ensures Filter(NewCommand(name, arguments).arguments, NotOutput) == Filter(arguments, NotOutput) + [AsArray]
    ensures Filter(NewCommand(name, arguments).arguments, IsOutput) == Filter(arguments, IsOutput)
  {
    FilterAppend(arguments, [AsArray], NotOutput);
    FilterAppend(arguments, [AsArray], IsOutput);
  }
}

=== FILE: lists.dfy ===
/** Sequence helpers mirroring the Python list operations the wrapper uses:
    slicing with a step of -1, and list comprehensions with a filter. */
module Lists {

  /** `s[::-1]`. */
  function Reverse<T>(s: seq<T>): (r: seq<T>)
    ensures |r| == |s|
    ensures forall i :: 0 <= i < |s| ==> r[i] == s[|s| - 1 - i]
  {
    if s == [] then [] else Reverse(s[1..]) + [s[0]]
  }

  /** `[x for x in s if p(x)]`. */
  function Filter<T(!new)>(s: seq<T>, p: T -> bool): (r: seq<T>)
    ensures |r| <= |s|
    ensures forall x :: x in r <==> x in s && p(x)
  {
    if s == [] then [] else (if p(s[0]) then [s[0]] else []) + Filter(s[1..], p)
  }

  /** `[f(x) for x in s]`. */
  function Map<T, U>(s: seq<T>, f: T -> U): (r: seq<U>)
    ensures |r| == |s|
    ensures forall i :: 0 <= i < |s| ==> r[i] == f(s[i])
  {
    seq(|s|, i requires 0 <= i < |s| => f(s[i]))
  }

  lemma {:induction false} ReverseAppend<T>(a: seq<T>, b: seq<T>)
    ensures Reverse(a + b) == Reverse(b) + Reverse(a)
  {
    assert |Reverse(a + b)| == |Reverse(b) + Reverse(a)|;
    forall i | 0 <= i < |a| + |b|
      ensures Reverse(a + b)[i] == (Reverse(b) + Reverse(a))[i]
    {
      if i < |b| {
        assert (Reverse(b) + Reverse(a))[i] == Reverse(b)[i];
      } else {
        assert (Reverse(b) + Reverse(a))[i] == Reverse(a)[i - |b|];
      }
    }
  }

  lemma {:induction false} FilterAppend<T(!new)>(a: seq<T>, b: seq<T>, p: T -> bool)
    ensures Filter(a + b, p) == Filter(a, p) + Filter(b, p)
  {
    if a == [] {
      assert a + b == b;
    } else {
      assert (a + b)[1..] == a[1..] + b;
      FilterAppend(a[1..], b, p);
    }
  }

  /** Filtering commutes with reversal: the elements kept from a reversed
      list are the kept elements, reversed. */
  lemma {:induction false} FilterReverse<T(!new)>(s: seq<T>, p: T -> bool)
    ensures Filter(Reverse(s), p) == Reverse(Filter(s, p))
  {
    if s == [] {
    } else {
      var head := if p(s[0]) then [s[0]] else [];
      calc {
        Filter(Reverse(s), p);
        Filter(Reverse(s[1..]) + [s[0]], p);
        { FilterAppend(Reverse(s[1..]), [s[0]], p); }
        Filter(Reverse(s[1..]), p) + Filter([s[0]], p);
        { FilterReverse(s[1..], p); assert Filter([s[0]], p) == head; }
        Reverse(Filter(s[1..], p)) + head;
        { assert Reverse(head) == head; }
        Reverse(Filter(s[1..], p)) + Reverse(head);
        { ReverseAppend(head, Filter(s[1..], p)); }
        Reverse(head + Filter(s[1..], p));
      }
    }
  }

  lemma InReverse<T>(s: seq<T>, x: T)
    ensures x in Reverse(s) <==> x in s
  {
    if x in s {
      var j :| 0 <= j < |s| && s[j] == x;
      assert Reverse(s)[|s| - 1 - j] == x;
    }
  }

  /** Reversal only reorders: the reversed list holds the same elements,
      each as often. */
  lemma {:induction false} ReversePermutes<T>(s: seq<T>)
    ensures multiset(Reverse(s)) == multiset(s)
  {
    if s != [] {
      ReversePermutes(s[1..]);
      assert Reverse(s) == Reverse(s[1..]) + [s[0]];
      assert s == [s[0]] + s[1..];
    }
  }

  lemma MapReverse<T, U>(s: seq<T>, f: T -> U)
    ensures Map(Reverse(s), f) == Reverse(Map(s, f))
  {
  }
}

=== FILE: results.dfy ===
/** Errors raised by the wrapper and a failure-compatible result type. */
module Results {
  import opened Values

  datatype Error =
    /** A positional value beyond the declared arguments. */
    | TooManyArguments
    /** A keyword that names no declared argument. */
    | UnknownArgument(keyword: string)
    /** TypeError: the "provided by position and keyword" message is a
        format string without a conversion, so `%` fails. */
    | FormatTypeError
    /** TypeError: `list.append` is called with two arguments. */
    | AppendTypeError
    /** The error the keyword path evidently intends for a keyword that
        names an argument already bound. */
    | DuplicateBinding(keyword: string)
    /** Names of the required inputs left unbound. */
    | MissingRequired(names: seq<string>)
    /** An input grid value with at most one element. */
    | InvalidParameter(name: string)
    /** IndexError: an input grid array with fewer than two dimensions. */
    | ShapeIndexError(name: string)
    /** KeyError: an input grid whose dtype has no GDAL type. */
    | DTypeKeyError(dtype: DType)
    /** ValueError: GDAL writes a band only from a two-dimensional array. */
    | WriteArrayError(name: string)
    /** `read_result` on an argument that is not an output grid. */
    | CantReadOutput(name: string)

  datatype Result<+T> = Success(value: T) | Failure(error: Error) {
    predicate IsFailure() {
      Failure?
    }

    function PropagateFailure<U>(): Result<U>
      requires Failure?
    {
      Failure(error)
    }

    function Extract(): T
      requires Success?
    {
      value
    }
  }
}

=== FILE: settings.dfy ===
/** The wrapper's configuration constants and the launcher prefix built
    from them. */
module Settings {
  import opened Values
  import opened Strings

  /** The module-level settings: the directory prefix of the toolkit's
      executables, whether to launch through MPI, the process count, and
      the directory and name of the MPI launcher. */
  datatype Config = Config(
    taudemPath: string,
    useMpi: bool,
    mpiProcessors: int,
    mpiPath: string,
    mpiCmd: string)

  /** The values the settings module ships with. */
  const Defaults := Config("", true, 4, "", "mpiexec")

  /** The launcher executable: `os.path.join(MPI_PATH, MPI_CMD)`. */
  function Launcher(c: Config): string
  {
    PathJoin(c.mpiPath, c.mpiCmd)
  }

  /** `mpi_cmd()`: empty without MPI, else the launcher followed by
      `-n` and the process count in decimal. */
  function MpiCmd(c: Config): (prefix: string)
  {
    if !c.useMpi then "" else Launcher(c) + " -n " + Decimal(c.mpiProcessors)
  }

  /** The prefix is empty exactly when MPI is off; when it is on, it
      starts with the launcher path, which ends with the configured command
      name, continues with " -n ", and the rest reads back as the
      configured process count. */
  lemma MpiCmdParts(c: Config)
    ensures !c.useMpi ==> MpiCmd(c) == ""
    ensures c.useMpi ==>
      var r, l := MpiCmd(c), Launcher(c);
      && |r| > |l| + 4
      && r[..|l|] == l
      && l[|l| - |c.mpiCmd|..] == c.mpiCmd
      && r[|l|..|l| + 4] == " -n "
      && ParseInt(r[|l| + 4..]) == Some(c.mpiProcessors)
  {
    if c.useMpi {
      var r, l := MpiCmd(c), Launcher(c);
      assert r[|l| + 4..] == Decimal(c.mpiProcessors);
      DecimalRoundTrip(c.mpiProcessors);
    }
  }

  /** With the shipped settings the prefix is exactly "mpiexec -n 4". */
  lemma DefaultPrefix()
    ensures MpiCmd(Defaults) == "mpiexec -n 4"
    ensures Defaults.taudemPath == ""
  {
    assert Launcher(Defaults) == "mpiexec";
    assert Decimal(4) == "4";
  }
}

=== FILE: strings.dfy ===
/** The Python string operations the wrapper relies on: lower-casing,
    `' '.join`, `'%d'` formatting and `os.path.join` (POSIX). */
module Strings {
  import opened Values

  /** Lower-cases an ASCII letter and leaves every other character alone. */
  function LowerChar(c: char): char
  {
    if 'A' <= c <= 'Z' then (c as int + 32) as char else c
  }

  /** `s.lower()`, restricted to ASCII letters. */
  function Lower(s: string): string
  {
    if s == [] then [] else [LowerChar(s[0])] + Lower(s[1..])
  }

  /** Lower-casing twice is lower-casing once, so comparing lower-cased
      names is an equivalence that ignores case. */
  lemma {:induction false} LowerIdempotent(s: string)
    ensures Lower(Lower(s)) == Lower(s)
  {
    if s != [] {
      var t := Lower(s);
      assert t[0] == LowerChar(s[0]) && t[1..] == Lower(s[1..]);
      LowerIdempotent(s[1..]);
    }
  }

  /** Lower-casing keeps the length, so names of different lengths never
      match. */
  lemma {:induction false} LowerLength(s: string)
    ensures |Lower(s)| == |s|
  {
    if s != [] {
      LowerLength(s[1..]);
    }
  }

  /** `' '.join(parts)`. */
  function Join(parts: seq<string>): string
  {
    if parts == [] then ""
    else if |parts| == 1 then parts[0]
    else parts[0] + " " + Join(parts[1..])
  }

  /** Joining two non-empty lists is joining each and separating the two
      results by a single space. */
  lemma {:induction false} JoinAppend(a: seq<string>, b: seq<string>)
    requires a != [] && b != []
    ensures Join(a + b) == Join(a) + " " + Join(b)
  {
    if |a| == 1 {
      assert (a + b)[1..] == b;
    } else {
      assert (a + b)[1..] == a[1..] + b;
      JoinAppend(a[1..], b);
    }
  }

  predicate IsDigit(c: char)
  {
    '0' <= c <= '9'
  }

  function DigitChar(d: nat): (c: char)
    requires d < 10
    ensures IsDigit(c)
  {
    (d + '0' as int) as char
  }

  /** Decimal digits of a natural number, most significant first. */
  function NatDigits(n: nat): (r: string)
    ensures |r| >= 1
    ensures forall i :: 0 <= i < |r| ==> IsDigit(r[i])
    decreases n
  {
    if n < 10 then [DigitChar(n)] else NatDigits(n / 10) + [DigitChar(n % 10)]
  }

  /** `'%d' % n`. */
  function Decimal(n: int): string
  {
    if n < 0 then "-" + NatDigits(-n) else NatDigits(n)
  }

  /** Value of a non-empty string of decimal digits. */
  function DigitsValue(s: string): nat
    requires forall i :: 0 <= i < |s| ==> IsDigit(s[i])
  {
    if s == [] then 0
    else
      assert IsDigit(s[|s| - 1]);
      10 * DigitsValue(s[..|s| - 1]) + (s[|s| - 1] as int - '0' as int)
  }

  /** Reads back an optionally signed decimal integer. */
  function ParseInt(s: string): Option<int>
  {
    if |s| >= 2 && s[0] == '-' && forall i :: 1 <= i < |s| ==> IsDigit(s[i]) then
      var magnitude: int := DigitsValue(s[1..]);
      Some(-magnitude)
    else if |s| >= 1 && forall i :: 0 <= i < |s| ==> IsDigit(s[i]) then
      Some(DigitsValue(s))
    else None
  }

  lemma {:induction false} NatDigitsRoundTrip(n: nat)
    ensures DigitsValue(NatDigits(n)) == n
    decreases n
  {
    var s := NatDigits(n);
    if n >= 10 {
      assert s[..|s| - 1] == NatDigits(n / 10);
      NatDigitsRoundTrip(n / 10);
    }
  }

  /** `'%d'` formatting is read back exactly. */
  lemma DecimalRoundTrip(n: int)
    ensures ParseInt(Decimal(n)) == Some(n)
  {
    if n < 0 {
      NegativeRoundTrip(n);
    } else {
      NatDigitsRoundTrip(n);
      assert Decimal(n) == NatDigits(n);
      assert !(|Decimal(n)| >= 2 && Decimal(n)[0] == '-');
    }
  }

  lemma NegativeRoundTrip(n: int)
    requires n < 0
    ensures ParseInt(Decimal(n)) == Some(n)
  {
    var d := NatDigits(-n);
    var s := "-" + d;
    assert Decimal(n) == s;
    assert s[0] == '-' && s[1..] == d;
    assert forall i :: 1 <= i < |s| ==> s[i] == d[i - 1];
    NatDigitsRoundTrip(-n);
  }

  /** `os.path.join(a, b)` with POSIX separators: an absolute `b` replaces
      `a`; otherwise a separator is inserted unless `a` is empty or already
      ends with one. */
  function PathJoin(a: string, b: string): (r: string)
    ensures |r| >= |b| && r[|r| - |b|..] == b
    ensures "/" <= b ==> r == b
    ensures !("/" <= b) ==> |r| >= |a| && r[..|a|] == a
    ensures !("/" <= b) && a == [] ==> r == b
    ensures !("/" <= b) && a != [] ==>
      && |r| > |b|
      && r[|r| - |b| - 1] == '/'
      && (r == a + b || r == a + "/" + b)
      && (a[|a| - 1] == '/' ==> r == a + b)
  {
    if "/" <= b then b
    else if a == [] || a[|a| - 1] == '/' then a + b
    else a + "/" + b
  }
}

=== FILE: tables.dfy ===
/** The three commands the wrapper declares, and what calling them
    produces with the shipped settings. */
module Tables {
  import opened Values
  import opened Results
  import opened Lists
  import opened Strings
  import opened Settings
  import opened Arguments
  import opened Binder
  import IntendedBinder
  import opened Commands

  const DemGrid := Argument("demgrid", Some("z"))
  const PitFilledDemGrid := Argument("pitfilleddemgrid", Some("fel"), kind := OUTPUT_GRID)
  const UpSerDirGrid := Argument("upserdirgrid", Some("sfdr"), optional := true)

  /** Pit filling. */
  const FillPits := NewCommand("pitremove", [DemGrid, PitFilledDemGrid, UpSerDirGrid])

  const PitFilledDem := Argument("pitfilleddem", Some("fel"))
  const D8PointerGrid := Argument("d8pointergrid", Some("p"), kind := OUTPUT_GRID)
  const D8SlopeGrid := Argument("d8slopegrid", Some("sd8"), kind := OUTPUT_GRID)

  /** D8 flow directions. */
  const D8P := NewCommand("d8flowdir", [PitFilledDem, D8PointerGrid, D8SlopeGrid, UpSerDirGrid])

  const D8Pointers := Argument("d8pointergrid", Some("p"))
  const UpstreamAreaGrid := Argument("upstreamareagrid", Some("ad8"), kind := OUTPUT_GRID)
  const Outlets := Argument("outlets", Some("o"), kind := INPUT_SHP, optional := true)
  const WeightGrid := Argument("weightgrid", Some("wg"), optional := true)
  const EdgeContamination := Argument("nc", Some("nc"), kind := "flag", optional := true)

  /** D8 contributing area. */
  const AreaD8 := NewCommand("aread8", [D8Pointers, UpstreamAreaGrid, Outlets, WeightGrid, EdgeContamination])

  /** Every command the wrapper exports. */
  const AllCommands := [FillPits, D8P, AreaD8]

  /** The module's list of commands: the three tools in order, each with
      `as_array` as its last argument. */
  lemma ShippedCommands()
    ensures |AllCommands| == 3
    ensures AllCommands[0].name == "pitremove" && AllCommands[1].name == "d8flowdir" && AllCommands[2].name == "aread8"
    ensures forall i :: 0 <= i < |AllCommands| ==>
      |AllCommands[i].arguments| >= 1 && AllCommands[i].arguments[|AllCommands[i].arguments| - 1] == AsArray
  {
  }

  /** A 3 x 3 single-precision elevation array. */
  const Elevations := RawArray(NdArray([3, 3], Float32))

  /** The declared arguments, `as_array` appended last. */
  lemma FillPitsDeclared()
    ensures FillPits.arguments == [DemGrid, PitFilledDemGrid, UpSerDirGrid, AsArray]
  {
  }

  lemma D8PDeclared()
    ensures D8P.arguments == [PitFilledDem, D8PointerGrid, D8SlopeGrid, UpSerDirGrid, AsArray]
  {
  }

  lemma AreaD8Declared()
    ensures AreaD8.arguments == [D8Pointers, UpstreamAreaGrid, Outlets, WeightGrid, EdgeContamination, AsArray]
  {
  }

  lemma Kinds()
    ensures !IsOutput(DemGrid) && IsOutput(PitFilledDemGrid) && !IsOutput(UpSerDirGrid) && !IsOutput(AsArray)
    ensures !IsOutput(PitFilledDem) && IsOutput(D8PointerGrid) && IsOutput(D8SlopeGrid)
    ensures !IsOutput(D8Pointers) && IsOutput(UpstreamAreaGrid) && !IsOutput(Outlets)
    ensures !IsOutput(WeightGrid) && !IsOutput(EdgeContamination)
  {
    assert INPUT_GRID[0] != "output"[0];
    assert INPUT_SHP[0] != "output"[0];
    assert "flag"[0] != "output"[0];
    assert AsArray.kind[0] != "output"[0];
  }

  /** The strings the examples below put together. */
  lemma Texts()
    ensures "-" + "z" + " " + "z" + ".tif" == "-z z.tif"
    ensures "-" + "fel" + " " + "fel" + ".tif" == "-fel fel.tif"
    ensures "-" + "sd8" + " " + "sd8" + ".tif" == "-sd8 sd8.tif"
    ensures "-" + "p" + " " + "p" + ".tif" == "-p p.tif"
    ensures "z" + ".tif" == "z.tif" && "fel" + ".tif" == "fel.tif"
    ensures "sd8" + ".tif" == "sd8.tif" && "p" + ".tif" == "p.tif"
  {
  }

  /** An output grid with a flag names its file after the flag. */
  lemma OutputGridToken(a: Argument, f: string, v: Value)
    requires a.kind == OUTPUT_GRID && a.flag == Some(f) && f != ""
    ensures Generate(a, v) == Success(Token("-" + f + " " + f + ".tif", None))
    ensures ReadResult(a) == Success(f + ".tif")
  {
    assert OUTPUT_GRID != INPUT_GRID;
    assert Stem(a) == f;
    assert FileToken(a, f + ".tif") == "-" + f + " " + f + ".tif";
  }

  /** An input grid with a flag, bound to `Elevations`, is written to the
      file named after the flag with the default transform. */
  lemma ElevationsStaged(a: Argument, f: string)
    requires a.kind == INPUT_GRID && a.flag == Some(f) && f != ""
    ensures Generate(a, Elevations)
      == Success(Token("-" + f + " " + f + ".tif", Some(StagedGrid(f + ".tif", 3, 3, GdtFloat32, DefaultTransform))))
  {
    assert Size(Elevations.arr) == 9;
    assert GdalTypeOf(Float32) == Some(GdtFloat32);
    assert Stem(a) == f;
    assert FileToken(a, f + ".tif") == "-" + f + " " + f + ".tif";
  }

  /** Generating the tokens of a non-empty list of pairs. */
  lemma TokensCons(p: (Argument, Value), rest: seq<(Argument, Value)>)
    requires Generate(p.0, p.1).Success? && Tokens(rest).result.Success?
    ensures var t, r := Generate(p.0, p.1).value, Tokens(rest);
      Tokens([p] + rest) == Run(Success([t.text] + r.result.value), StagedWrites(t) + r.effects)
  {
    assert ([p] + rest)[0] == p && ([p] + rest)[1..] == rest;
  }

  /** Reading back a non-empty list of outputs. */
  lemma ReadsCons(a: Argument, rest: seq<Argument>)
    requires ReadResult(a).Success? && Reads(rest).result.Success?
    ensures var f, r := ReadResult(a).value, Reads(rest);
      Reads([a] + rest) == Run(Success([f] + r.result.value), [ReadGrid(f)] + r.effects)
  {
    assert ([a] + rest)[0] == a && ([a] + rest)[1..] == rest;
  }

  // ---------------------------------------------------------------- pitremove

  const FillPitsBound := Bound([(DemGrid, Elevations)], [PitFilledDemGrid])

  const FillPitsTrace := [
    MakeScratch, EnterScratch,
    WriteGrid(StagedGrid("z.tif", 3, 3, GdtFloat32, DefaultTransform)),
    RunCommand("mpiexec -n 4 pitremove -z z.tif -fel fel.tif"),
    ReadGrid("fel.tif"),
    RemoveScratch, RestoreDir]

  lemma FillPitsPool()
    ensures Reverse(FillPits.arguments) == [AsArray, UpSerDirGrid, PitFilledDemGrid, DemGrid]
  {
    var a := [DemGrid, PitFilledDemGrid, UpSerDirGrid, AsArray];
    assert Reverse(a[3..]) == [AsArray];
    assert Reverse(a[2..]) == [AsArray, UpSerDirGrid];
    assert Reverse(a[1..]) == [AsArray, UpSerDirGrid, PitFilledDemGrid];
  }

  /** One value pops `demgrid`, the last element of the reversed pool. */
  lemma FillPitsPopsDem()
    ensures BindPositional(State([AsArray, UpSerDirGrid, PitFilledDemGrid, DemGrid], []), [Elevations])
      == Success(State([AsArray, UpSerDirGrid, PitFilledDemGrid], [(DemGrid, Elevations)]))
  {
    var s := [AsArray, UpSerDirGrid, PitFilledDemGrid, DemGrid];
    assert s[..3] == [AsArray, UpSerDirGrid, PitFilledDemGrid];
    assert [Elevations][1..] == [];
    var st := State(s[..3], [] + [(DemGrid, Elevations)]);
    assert st == State([AsArray, UpSerDirGrid, PitFilledDemGrid], [(DemGrid, Elevations)]);
    assert BindPositional(st, []) == Success(st);
  }

  /** With `demgrid` bound, `pitfilleddemgrid` becomes the one placeholder
      and nothing required is missing. */
  lemma FillPitsFinish()
    ensures Finish(State([AsArray, UpSerDirGrid, PitFilledDemGrid], [(DemGrid, Elevations)])) == Success(FillPitsBound)
  {
    FillPitsLeftOver();
  }

  lemma FillPitsLeftOver()
    ensures Filter([AsArray, UpSerDirGrid, PitFilledDemGrid], IsOutput) == [PitFilledDemGrid]
    ensures Filter([AsArray, UpSerDirGrid, PitFilledDemGrid], IsRequiredInput) == []
  {
    var s := [AsArray, UpSerDirGrid, PitFilledDemGrid];
    Kinds();
    assert s[1..] == [UpSerDirGrid, PitFilledDemGrid];
    assert s[2..] == [PitFilledDemGrid];
    assert Filter(s[2..], IsOutput) == [PitFilledDemGrid];
    assert Filter(s[2..], IsRequiredInput) == [];
    assert Filter(s[1..], IsRequiredInput) == [];
  }

  lemma FillPitsBinds()
    ensures Bind(FillPits.arguments, [Elevations], []) == Success(FillPitsBound)
  {
    FillPitsPool();
    FillPitsPopsDem();
    FillPitsFinish();
  }

  lemma FelPlaceholderToken()
    ensures Tokens([(PitFilledDemGrid, Other)]) == Run(Success(["-fel fel.tif"]), [])
  {
    Texts();
    OutputGridToken(PitFilledDemGrid, "fel", Other);
    TokensCons((PitFilledDemGrid, Other), []);
    assert [(PitFilledDemGrid, Other)] + [] == [(PitFilledDemGrid, Other)];
    assert Tokens([]) == Run(Success([]), []);
    var t := Generate(PitFilledDemGrid, Other).value;
    assert t.text == "-fel fel.tif" && StagedWrites(t) == [];
    assert [t.text] + [] == ["-fel fel.tif"];
    var e: seq<Event> := [];
    assert e + e == e;
  }

  lemma FillPitsTokens()
    ensures Tokens(AllPairs(FillPitsBound))
      == Run(Success(["-z z.tif", "-fel fel.tif"]), [WriteGrid(StagedGrid("z.tif", 3, 3, GdtFloat32, DefaultTransform))])
  {
    assert AllPairs(FillPitsBound) == [(DemGrid, Elevations)] + [(PitFilledDemGrid, Other)];
    FelPlaceholderToken();
    Texts();
    ElevationsStaged(DemGrid, "z");
    var g := StagedGrid("z.tif", 3, 3, GdtFloat32, DefaultTransform);
    TokensCons((DemGrid, Elevations), [(PitFilledDemGrid, Other)]);
    var t := Generate(DemGrid, Elevations).value;
    assert t.text == "-z z.tif" && StagedWrites(t) == [WriteGrid(g)];
    assert [t.text] + ["-fel fel.tif"] == ["-z z.tif", "-fel fel.tif"];
    assert [WriteGrid(g)] + [] == [WriteGrid(g)];
  }

  /** The command line of two tokens. */
  lemma LineOfTwo(cfg: Config, name: string, x: string, y: string)
    ensures CommandLine(cfg, name, [x, y]) == MpiCmd(cfg) + " " + cfg.taudemPath + name + " " + (x + " " + y)
  {
    assert [x, y][1..] == [y];
    assert Join([x, y]) == x + " " + y;
  }

  /** The command line of three tokens. */
  lemma LineOfThree(cfg: Config, name: string, x: string, y: string, z: string)
    ensures CommandLine(cfg, name, [x, y, z]) == MpiCmd(cfg) + " " + cfg.taudemPath + name + " " + (x + " " + (y + " " + z))
  {
    assert [x, y, z][1..] == [y, z] && [y, z][1..] == [z];
    assert Join([y, z]) == y + " " + z;
    assert Join([x, y, z]) == x + " " + (y + " " + z);
  }

  lemma FillPitsLine()
    ensures CommandLine(Defaults, "pitremove", ["-z z.tif", "-fel fel.tif"]) == "mpiexec -n 4 pitremove -z z.tif -fel fel.tif"
  {
    DefaultPrefix();
    LineOfTwo(Defaults, "pitremove", "-z z.tif", "-fel fel.tif");
    FillPitsLineText();
  }

  lemma FillPitsLineText()
    ensures "mpiexec -n 4" + " " + "" + "pitremove" + " " + ("-z z.tif" + " " + "-fel fel.tif")
      == "mpiexec -n 4 pitremove -z z.tif -fel fel.tif"
  {
    assert "mpiexec -n 4" + " " + "" + "pitremove" + " " == "mpiexec -n 4 pitremove ";
    assert "-z z.tif" + " " + "-fel fel.tif" == "-z z.tif -fel fel.tif";
  }

  lemma FillPitsReads()
    ensures Reads([PitFilledDemGrid]) == Run(Success(["fel.tif"]), [ReadGrid("fel.tif")])
  {
    Texts();
    OutputGridToken(PitFilledDemGrid, "fel", Other);
    ReadsCons(PitFilledDemGrid, []);
    assert [PitFilledDemGrid] + [] == [PitFilledDemGrid];
    assert Reads([]) == Run(Success([]), []);
    assert ReadResult(PitFilledDemGrid).value == "fel.tif";
    assert ["fel.tif"] + [] == ["fel.tif"];
    assert [ReadGrid("fel.tif")] + [] == [ReadGrid("fel.tif")];
  }

  /** Once `demgrid` is bound to the array, the call writes z.tif, runs
      pitremove under mpiexec with four processes, and returns the grid
      read from fel.tif, cleaning up afterwards. */
  lemma FillPitsExecutes()
    ensures Execute(Defaults, FillPits, Success(FillPitsBound)) == Outcome(Success(Single("fel.tif")), FillPitsTrace)
  {
    var g := StagedGrid("z.tif", 3, 3, GdtFloat32, DefaultTransform);
    FillPitsTokens();
    FillPitsReads();
    ExecuteSucceeds(Defaults, FillPits, FillPitsBound, ["-z z.tif", "-fel fel.tif"], [WriteGrid(g)], ["fel.tif"], [ReadGrid("fel.tif")]);
    FillPitsLine();
    assert FillPits.name == "pitremove";
    TraceOneRead(WriteGrid(g), RunCommand("mpiexec -n 4 pitremove -z z.tif -fel fel.tif"), ReadGrid("fel.tif"));
  }

  /** `fillpits(dem)`: the array fills the first declared argument. */
  lemma FillPitsCall()
    ensures Call(Defaults, FillPits, [Elevations], []) == Outcome(Success(Single("fel.tif")), FillPitsTrace)
  {
    FillPitsBinds();
    FillPitsExecutes();
  }

  /** `fillpits()`: the required elevation grid is reported missing before
      anything touches the file system. */
  lemma FillPitsMissingDem()
    ensures Call(Defaults, FillPits, [], []) == Outcome(Failure(MissingRequired(["demgrid"])), [])
  {
    FillPitsPool();
    FillPitsNothingBound();
  }

  lemma FillPitsNothingBound()
    ensures Finish(State([AsArray, UpSerDirGrid, PitFilledDemGrid, DemGrid], [])) == Failure(MissingRequired(["demgrid"]))
  {
    var s := [AsArray, UpSerDirGrid, PitFilledDemGrid, DemGrid];
    Kinds();
    assert s[1..] == [UpSerDirGrid, PitFilledDemGrid, DemGrid];
    assert s[1..][1..] == [PitFilledDemGrid, DemGrid];
    assert s[1..][1..][1..] == [DemGrid];
    assert Filter(s[1..][1..][1..], IsRequiredInput) == [DemGrid];
    assert Filter(s[1..][1..], IsRequiredInput) == [DemGrid];
    assert Filter(s[1..], IsRequiredInput) == [DemGrid];
    assert Filter(s, IsRequiredInput) == [DemGrid];
    assert Names([DemGrid]) == ["demgrid"];
  }

  // ---------------------------------------------------------------- keyword calls

  /** Of the pitremove arguments, only `demgrid` has the name "demgrid". */
  lemma DemGridNames()
    ensures !NameMatches("demgrid", AsArray) && !NameMatches("demgrid", UpSerDirGrid)
    ensures !NameMatches("demgrid", PitFilledDemGrid) && NameMatches("demgrid", DemGrid)
  {
    LowerLength("demgrid");
    LowerLength("as_array");
    LowerLength("upserdirgrid");
    LowerLength("pitfilleddemgrid");
  }

  /** A keyword that only the last of four arguments matches. */
  lemma MatchFourth(keyword: string, a: Argument, b: Argument, c: Argument, d: Argument)
    requires !NameMatches(keyword, a) && !NameMatches(keyword, b) && !NameMatches(keyword, c)
    requires NameMatches(keyword, d)
    ensures MatchArg(keyword, [a, b, c, d]) == Some(d)
    ensures MatchArg(keyword, [a, b, c]) == None
  {
    var s := [a, b, c, d];
    assert s[1..] == [b, c, d] && s[1..][1..] == [c, d] && s[1..][1..][1..] == [d];
    assert MatchArg(keyword, [d]) == Some(d);
    assert MatchArg(keyword, [c, d]) == Some(d);
    assert MatchArg(keyword, [b, c, d]) == Some(d);
    var p := [a, b, c];
    assert p[1..] == [b, c] && p[1..][1..] == [c];
  }

  /** `demgrid` matches the argument of that name in the full pool and
      nothing once it has been popped... */
  lemma DemGridInPool()
    ensures MatchArg("demgrid", [AsArray, UpSerDirGrid, PitFilledDemGrid, DemGrid]) == Some(DemGrid)
    ensures MatchArg("demgrid", [AsArray, UpSerDirGrid, PitFilledDemGrid]) == None
  {
    DemGridNames();
    MatchFourth("demgrid", AsArray, UpSerDirGrid, PitFilledDemGrid, DemGrid);
  }

  /** ... and the first declared argument among the declarations. */
  lemma DemGridDeclared()
    ensures MatchArg("demgrid", FillPits.arguments) == Some(DemGrid)
  {
    DemGridNames();
    FillPitsDeclared();
  }

  /** `fillpits(demgrid=dem)` as written: the keyword matches the pool and
      the two-argument `append` raises before anything is staged. */
  lemma KeywordCallRaises()
    ensures Call(Defaults, FillPits, [], [("demgrid", Elevations)]) == Outcome(Failure(AppendTypeError), [])
  {
    FillPitsPool();
    DemGridInPool();
    DemGridDeclared();
  }

  /** `fillpits(demgrid=dem)` with the intended keyword path does what
      `fillpits(dem)` does. */
  lemma IntendedKeywordCallRuns()
    ensures CallIntended(Defaults, FillPits, [], [("demgrid", Elevations)]) == Call(Defaults, FillPits, [Elevations], [])
  {
    IntendedKeywordBinds();
    FillPitsCall();
    FillPitsExecutes();
  }

  /** A single keyword that matches the pool binds the argument it
      matches and takes it out of the pool. */
  lemma OneKeyword(arguments: seq<Argument>, pool: seq<Argument>, keyword: string, v: Value, a: Argument)
    requires MatchArg(keyword, pool) == Some(a)
    ensures IntendedBinder.BindKeywordsIntended(arguments, pool, [(keyword, v)])
      == Success((IntendedBinder.RemoveFirst(pool, a), [(a, v)]))
  {
    assert [(keyword, v)][1..] == [];
    assert [(a, v)] + [] == [(a, v)];
  }

  /** Removing an argument skips a first element that differs from it. */
  lemma RemoveSkips(x: Argument, rest: seq<Argument>, d: Argument)
    requires x != d && d in rest
    ensures IntendedBinder.RemoveFirst([x] + rest, d) == [x] + IntendedBinder.RemoveFirst(rest, d)
  {
    assert ([x] + rest)[0] == x && ([x] + rest)[1..] == rest;
  }

  /** Removing an argument that occurs only at the end of a list drops the
      last element. */
  lemma {:induction false} RemoveLast(s: seq<Argument>, d: Argument)
    requires d !in s
    ensures IntendedBinder.RemoveFirst(s + [d], d) == s
  {
    if s == [] {
      assert [] + [d] == [d];
    } else {
      assert s + [d] == [s[0]] + (s[1..] + [d]);
      RemoveSkips(s[0], s[1..] + [d], d);
      RemoveLast(s[1..], d);
    }
  }

  /** Removing the last of four distinct arguments. */
  lemma RemoveFourth(a: Argument, b: Argument, c: Argument, d: Argument)
    requires a != d && b != d && c != d
    ensures IntendedBinder.RemoveFirst([a, b, c, d], d) == [a, b, c]
  {
    RemoveLast([a, b, c], d);
    assert [a, b, c] + [d] == [a, b, c, d];
  }

  /** A call with a single keyword and no positional values, bound the
      intended way. */
  lemma IntendedSingleKeyword(arguments: seq<Argument>, keyword: string, v: Value, a: Argument, rest: seq<Argument>)
    requires MatchArg(keyword, Reverse(arguments)) == Some(a)
    requires IntendedBinder.RemoveFirst(Reverse(arguments), a) == rest
    ensures IntendedBinder.BindIntended(arguments, [], [(keyword, v)]) == Finish(State(rest, [(a, v)]))
  {
    var pool := Reverse(arguments);
    OneKeyword(arguments, pool, keyword, v, a);
    assert BindPositional(State(pool, []), []) == Success(State(pool, []));
    assert [] + [(a, v)] == [(a, v)];
  }

  lemma IntendedKeywordBinds()
    ensures IntendedBinder.BindIntended(FillPits.arguments, [], [("demgrid", Elevations)]) == Success(FillPitsBound)
  {
    FillPitsPool();
    DemGridInPool();
    assert AsArray.name != DemGrid.name && UpSerDirGrid.name != DemGrid.name && PitFilledDemGrid.name != DemGrid.name;
    RemoveFourth(AsArray, UpSerDirGrid, PitFilledDemGrid, DemGrid);
    IntendedSingleKeyword(FillPits.arguments, "demgrid", Elevations, DemGrid, [AsArray, UpSerDirGrid, PitFilledDemGrid]);
    FillPitsFinish();
  }

  /** `fillpits(dem, demgrid=dem)` as written: the keyword matches only an
      argument already bound, and building the message raises. */
  lemma DuplicateKeywordRaises()
    ensures Bind(FillPits.arguments, [Elevations], [("demgrid", Elevations)]) == Failure(FormatTypeError)
  {
    FillPitsPool();
    FillPitsPopsDem();
    DemGridInPool();
    DemGridDeclared();
  }

  /** The same call with the intended message reports the duplicate. */
  lemma IntendedDuplicateReported()
    ensures IntendedBinder.BindIntended(FillPits.arguments, [Elevations], [("demgrid", Elevations)])
      == Failure(DuplicateBinding("demgrid"))
  {
    FillPitsPool();
    FillPitsPopsDem();
    DemGridInPool();
    DemGridDeclared();
  }

  // ---------------------------------------------------------------- d8flowdir

  const D8PBound := Bound([(PitFilledDem, Elevations)], [D8SlopeGrid, D8PointerGrid])

  const D8PTrace := [
    MakeScratch, EnterScratch,
    WriteGrid(StagedGrid("fel.tif", 3, 3, GdtFloat32, DefaultTransform)),
    RunCommand("mpiexec -n 4 d8flowdir -fel fel.tif -sd8 sd8.tif -p p.tif"),
    ReadGrid("sd8.tif"), ReadGrid("p.tif"),
    RemoveScratch, RestoreDir]

  lemma D8PPool()
    ensures Reverse(D8P.arguments) == [AsArray, UpSerDirGrid, D8SlopeGrid, D8PointerGrid, PitFilledDem]
  {
    var a := [PitFilledDem, D8PointerGrid, D8SlopeGrid, UpSerDirGrid, AsArray];
    assert Reverse(a[4..]) == [AsArray];
    assert Reverse(a[3..]) == [AsArray, UpSerDirGrid];
    assert Reverse(a[2..]) == [AsArray, UpSerDirGrid, D8SlopeGrid];
    assert Reverse(a[1..]) == [AsArray, UpSerDirGrid, D8SlopeGrid, D8PointerGrid];
  }

  lemma D8PPopsFel()
    ensures BindPositional(State([AsArray, UpSerDirGrid, D8SlopeGrid, D8PointerGrid, PitFilledDem], []), [Elevations])
      == Success(State([AsArray, UpSerDirGrid, D8SlopeGrid, D8PointerGrid], [(PitFilledDem, Elevations)]))
  {
    var s := [AsArray, UpSerDirGrid, D8SlopeGrid, D8PointerGrid, PitFilledDem];
    assert s[..4] == [AsArray, UpSerDirGrid, D8SlopeGrid, D8PointerGrid];
    assert [Elevations][1..] == [];
    var st := State(s[..4], [] + [(PitFilledDem, Elevations)]);
    assert st == State([AsArray, UpSerDirGrid, D8SlopeGrid, D8PointerGrid], [(PitFilledDem, Elevations)]);
    assert BindPositional(st, []) == Success(st);
  }

  /** The unbound outputs come back last-declared first: the slope grid
      before the pointer grid. */
  lemma D8PFinish()
    ensures Finish(State([AsArray, UpSerDirGrid, D8SlopeGrid, D8PointerGrid], [(PitFilledDem, Elevations)])) == Success(D8PBound)
  {
    D8PLeftOverOutputs();
    D8PLeftOverRequired();
  }

  lemma D8PLeftOverOutputs()
    ensures Filter([AsArray, UpSerDirGrid, D8SlopeGrid, D8PointerGrid], IsOutput) == [D8SlopeGrid, D8PointerGrid]
  {
    var s := [AsArray, UpSerDirGrid, D8SlopeGrid, D8PointerGrid];
    Kinds();
    assert s[1..] == [UpSerDirGrid, D8SlopeGrid, D8PointerGrid];
    assert s[2..] == [D8SlopeGrid, D8PointerGrid];
    assert s[3..] == [D8PointerGrid];
    assert Filter(s[3..], IsOutput) == [D8PointerGrid];
    assert Filter(s[2..], IsOutput) == [D8SlopeGrid, D8PointerGrid];
  }

  lemma D8PLeftOverRequired()
    ensures Filter([AsArray, UpSerDirGrid, D8SlopeGrid, D8PointerGrid], IsRequiredInput) == []
  {
    var s := [AsArray, UpSerDirGrid, D8SlopeGrid, D8PointerGrid];
    Kinds();
    assert s[1..] == [UpSerDirGrid, D8SlopeGrid, D8PointerGrid];
    assert s[2..] == [D8SlopeGrid, D8PointerGrid];
    assert s[3..] == [D8PointerGrid];
    assert Filter(s[3..], IsRequiredInput) == [];
    assert Filter(s[2..], IsRequiredInput) == [];
    assert Filter(s[1..], IsRequiredInput) == [];
  }

  lemma D8PBinds()
    ensures Bind(D8P.arguments, [Elevations], []) == Success(D8PBound)
  {
    D8PPool();
    D8PPopsFel();
    D8PFinish();
  }

  /** The token of one flagged output grid placeholder. */
  lemma OneOutputTokens(a: Argument, f: string)
    requires a.kind == OUTPUT_GRID && a.flag == Some(f) && f != ""
    ensures Tokens([(a, Other)]) == Run(Success(["-" + f + " " + f + ".tif"]), [])
  {
    OutputGridToken(a, f, Other);
    TokensCons((a, Other), []);
    assert [(a, Other)] + [] == [(a, Other)];
    assert Tokens([]) == Run(Success([]), []);
    var t := Generate(a, Other).value;
    assert StagedWrites(t) == [];
    assert [t.text] + [] == [t.text];
    var e: seq<Event> := [];
    assert e + e == e;
  }

  /** The tokens of two flagged output grid placeholders, in order. */
  lemma TwoOutputTokens(a: Argument, f: string, b: Argument, g: string)
    requires a.kind == OUTPUT_GRID && a.flag == Some(f) && f != ""
    requires b.kind == OUTPUT_GRID && b.flag == Some(g) && g != ""
    ensures Tokens([(a, Other), (b, Other)])
      == Run(Success(["-" + f + " " + f + ".tif", "-" + g + " " + g + ".tif"]), [])
  {
    OneOutputTokens(b, g);
    OutputGridToken(a, f, Other);
    TokensCons((a, Other), [(b, Other)]);
    assert [(a, Other)] + [(b, Other)] == [(a, Other), (b, Other)];
    var t := Generate(a, Other).value;
    assert StagedWrites(t) == [];
    var tb := "-" + g + " " + g + ".tif";
    assert [t.text] + [tb] == [t.text, tb];
    var e: seq<Event> := [];
    assert e + e == e;
  }

  lemma D8PPlaceholderTokens()
    ensures Tokens([(D8SlopeGrid, Other), (D8PointerGrid, Other)]) == Run(Success(["-sd8 sd8.tif", "-p p.tif"]), [])
  {
    Texts();
    TwoOutputTokens(D8SlopeGrid, "sd8", D8PointerGrid, "p");
  }

  lemma D8PTokens()
    ensures Tokens(AllPairs(D8PBound))
      == Run(Success(["-fel fel.tif", "-sd8 sd8.tif", "-p p.tif"]), [WriteGrid(StagedGrid("fel.tif", 3, 3, GdtFloat32, DefaultTransform))])
  {
    var ph := [(D8SlopeGrid, Other), (D8PointerGrid, Other)];
    assert AllPairs(D8PBound) == [(PitFilledDem, Elevations)] + ph;
    D8PPlaceholderTokens();
    Texts();
    ElevationsStaged(PitFilledDem, "fel");
    var g := StagedGrid("fel.tif", 3, 3, GdtFloat32, DefaultTransform);
    TokensCons((PitFilledDem, Elevations), ph);
    var t := Generate(PitFilledDem, Elevations).value;
    assert t.text == "-fel fel.tif" && StagedWrites(t) == [WriteGrid(g)];
    assert [t.text] + ["-sd8 sd8.tif", "-p p.tif"] == ["-fel fel.tif", "-sd8 sd8.tif", "-p p.tif"];
    assert [WriteGrid(g)] + [] == [WriteGrid(g)];
  }

  lemma D8PLine()
    ensures CommandLine(Defaults, "d8flowdir", ["-fel fel.tif", "-sd8 sd8.tif", "-p p.tif"])
      == "mpiexec -n 4 d8flowdir -fel fel.tif -sd8 sd8.tif -p p.tif"
  {
    DefaultPrefix();
    LineOfThree(Defaults, "d8flowdir", "-fel fel.tif", "-sd8 sd8.tif", "-p p.tif");
    D8PLineText();
  }

  lemma D8PLineText()
    ensures "mpiexec -n 4" + " " + "" + "d8flowdir" + " " + ("-fel fel.tif" + " " + ("-sd8 sd8.tif" + " " + "-p p.tif"))
      == "mpiexec -n 4 d8flowdir -fel fel.tif -sd8 sd8.tif -p p.tif"
  {
    D8PTokensText();
    D8PPrefixText();
    D8PWholeText();
  }

  lemma D8PPrefixText()
    ensures "mpiexec -n 4" + " " + "" + "d8flowdir" + " " == "mpiexec -n 4 d8flowdir "
  {
  }

  lemma D8PWholeText()
    ensures "mpiexec -n 4 d8flowdir " + "-fel fel.tif -sd8 sd8.tif -p p.tif"
      == "mpiexec -n 4 d8flowdir -fel fel.tif -sd8 sd8.tif -p p.tif"
  {
  }

  lemma D8PTokensText()
    ensures "-fel fel.tif" + " " + ("-sd8 sd8.tif" + " " + "-p p.tif") == "-fel fel.tif -sd8 sd8.tif -p p.tif"
  {
    assert "-sd8 sd8.tif" + " " + "-p p.tif" == "-sd8 sd8.tif -p p.tif";
  }

  lemma D8PReads()
    ensures Reads([D8SlopeGrid, D8PointerGrid]) == Run(Success(["sd8.tif", "p.tif"]), [ReadGrid("sd8.tif"), ReadGrid("p.tif")])
  {
    Texts();
    OutputGridToken(D8SlopeGrid, "sd8", Other);
    OutputGridToken(D8PointerGrid, "p", Other);
    ReadsCons(D8PointerGrid, []);
    assert [D8PointerGrid] + [] == [D8PointerGrid];
    assert Reads([]) == Run(Success([]), []);
    assert ["p.tif"] + [] == ["p.tif"];
    assert [ReadGrid("p.tif")] + [] == [ReadGrid("p.tif")];
    assert Reads([D8PointerGrid]) == Run(Success(["p.tif"]), [ReadGrid("p.tif")]);
    ReadsCons(D8SlopeGrid, [D8PointerGrid]);
    assert [D8SlopeGrid] + [D8PointerGrid] == [D8SlopeGrid, D8PointerGrid];
    assert ["sd8.tif"] + ["p.tif"] == ["sd8.tif", "p.tif"];
    assert [ReadGrid("sd8.tif")] + [ReadGrid("p.tif")] == [ReadGrid("sd8.tif"), ReadGrid("p.tif")];
  }

  lemma D8PExecutes()
    ensures Execute(Defaults, D8P, Success(D8PBound)) == Outcome(Success(Tuple(["sd8.tif", "p.tif"])), D8PTrace)
  {
    var tokens := ["-fel fel.tif", "-sd8 sd8.tif", "-p p.tif"];
    var g := StagedGrid("fel.tif", 3, 3, GdtFloat32, DefaultTransform);
    var readBack := [ReadGrid("sd8.tif"), ReadGrid("p.tif")];
    D8PTokens();
    D8PReads();
    assert D8PBound.placeholders == [D8SlopeGrid, D8PointerGrid];
    ExecuteSucceeds(Defaults, D8P, D8PBound, tokens, [WriteGrid(g)], ["sd8.tif", "p.tif"], readBack);
    D8PLine();
    assert D8P.name == "d8flowdir";
    TraceTwoReads(WriteGrid(g), RunCommand("mpiexec -n 4 d8flowdir -fel fel.tif -sd8 sd8.tif -p p.tif"),
      ReadGrid("sd8.tif"), ReadGrid("p.tif"));
  }

  /** Execution once the tokens and the outputs are known. */
  lemma ExecuteSucceeds(cfg: Config, c: Command, b: Bound, tokens: seq<string>, writes: seq<Event>,
                        files: seq<string>, readBack: seq<Event>)
    requires Tokens(AllPairs(b)) == Run(Success(tokens), writes)
    requires Reads(b.placeholders) == Run(Success(files), readBack)
    ensures Execute(cfg, c, Success(b)) == Outcome(Success(Shape(files)),
      [MakeScratch, EnterScratch] + (writes + [RunCommand(CommandLine(cfg, c.name, tokens))] + readBack) + [RemoveScratch, RestoreDir])
  {
  }

  /** A trace with one write and one read, spelled out. */
  lemma TraceOneRead(w: Event, run: Event, r: Event)
    ensures [MakeScratch, EnterScratch] + ([w] + [run] + [r]) + [RemoveScratch, RestoreDir]
      == [MakeScratch, EnterScratch, w, run, r, RemoveScratch, RestoreDir]
  {
  }

  /** A trace with one write and two reads, spelled out. */
  lemma TraceTwoReads(w: Event, run: Event, r1: Event, r2: Event)
    ensures [MakeScratch, EnterScratch] + ([w] + [run] + [r1, r2]) + [RemoveScratch, RestoreDir]
      == [MakeScratch, EnterScratch, w, run, r1, r2, RemoveScratch, RestoreDir]
  {
  }

  /** `d8p(fel)`: two outputs come back as a tuple, slope grid first. */
  lemma D8PCall()
    ensures Call(Defaults, D8P, [Elevations], []) == Outcome(Success(Tuple(["sd8.tif", "p.tif"])), D8PTrace)
  {
    D8PBinds();
    D8PExecutes();
  }
}

=== FILE: values.dfy ===
/** The values a caller can pass to a command: numeric arrays, GDAL datasets
    and anything else.  The duck-typed `hasattr` checks of the wrapper are
    replaced by an explicit tag. */
module Values {

  /** Element types of a numeric array.  Only the two floating-point types
      have a GDAL counterpart in the wrapper's type table. */
  datatype DType = Float32 | Float64 | OtherDType(name: string)

  /** GDAL raster data types used when a grid is written to disk. */
  datatype GdalType = GdtFloat32 | GdtFloat64

  /** The wrapper's numpy-to-GDAL type table: a dictionary lookup, so a
      dtype outside the table is a missing key. */
  function GdalTypeOf(d: DType): (r: Option<GdalType>)
    ensures r.Some? <==> d == Float32 || d == Float64
    ensures r == Some(GdtFloat32) <==> d == Float32
  {
    match d
    case Float32 => Some(GdtFloat32)
    case Float64 => Some(GdtFloat64)
    case OtherDType(_) => None
  }

  datatype Option<+T> = None | Some(value: T)

  /** A numeric array: its shape (rows first) and element type. */
  datatype NdArray = NdArray(shape: seq<nat>, dtype: DType)

  /** Number of elements of an array of the given shape (numpy's `size`);
      a 0-d array holds one element. */
  function Product(shape: seq<nat>): nat
  {
    if shape == [] then 1 else shape[0] * Product(shape[1..])
  }

  function Size(a: NdArray): nat
  {
    Product(a.shape)
  }

  /** A GDAL six-coefficient geotransform. */
  datatype Transform = Transform(x0: real, dx: real, rx: real, y0: real, ry: real, dy: real)

  /** The transform written for a raw array that carries none of its own. */
  const DefaultTransform := Transform(1.0, 0.001, 0.0, 1.0, 0.0, -0.001)

  /** An argument value: a raw array, a dataset (its own transform and the
      array of its first band), or any other Python object (a scalar,
      `None`, a boolean), whose numpy size is 1.  A band passed on its own
      is read into an array and written with the default transform, so it
      is a raw array here. */
  datatype Value =
    | RawArray(arr: NdArray)
    | Dataset(transform: Transform, band: NdArray)
    | Other
}
